=== FILE: README.md ===
# Habit tracker core in Dafny

This project models the backend of a habit tracker: habits that keep a per-day
completion record, the streak counters cached on each habit, the single global
settings row, and the GraphQL mutations that change them. Everything is modelled
as pure functions over immutable values:

- A habit (`Habits.Habit`) has its validated attributes, its completion store and
  its cached `currentStreak` and `longestStreak`. The completion store is a
  sequence of per-date `Completions.Completion` records.
- Calendar dates are integer day numbers (`Completions.Day`), so "the day before"
  is `d - 1`. `Dates` gives the proleptic Gregorian arithmetic that
  `month_completions` needs.
- The habits table is a map from external id to habit (`HabitStore.Store`). The
  settings table is a sequence of rows, read in primary-key order
  (`UserSettings`).
- Each mutation is a `Resolve` function. It takes the table and the arguments and
  returns a `Response`: the table afterwards and the payload the caller receives.
  An omitted argument is `None`.
- The ambient clock and the random id generator are parameters. `today` stands for
  `Date.current`, `now` for `Time.current`, and `freshId` for
  `SecureRandom.uuid`.

The main results are:

- **Streaks.** The current streak is the longest gap-tolerant prefix of the
  completed dates, sorted newest first. The longest streak is the length of a
  longest run of consecutive days.
- **Stored longest streak.** The cached value is a high-water mark. It can both
  under-count and over-count the true longest run.
- **Completion writes.** A write keeps at most one record per date and leaves
  every other date alone. Repeating it changes nothing more.
- **Errors.** Each mutation reports a missing habit, an invalid state name or a
  failed validation, and changes nothing when it does. The one exception is
  `updateUserSettings` on an empty settings table. There the default row that
  `first_or_create!` creates stays even when the update then fails.
- **Table invariant.** Every mutation preserves it: each habit is stored under its
  own id, is valid, has unique dates, and has `0 <= current <= longest`.

Three behaviours of the code are modelled exactly as written, although a reader might expect otherwise:

- The current-streak walk tolerates one missing day. Completions today and two
  days ago give a current streak of 2, not 1 (`Streaks.CurrentStreakToleratesOneMissingDay`).
- The completed dates are sorted but not deduplicated. Under the one-record-per-date
  invariant this makes no difference.
- The longest streak is never recomputed from history on save. The stored value
  is `max(stored, current)` (`Habits.UpdateStreaks`).

## Model

| member | source | states |
|---|---|---|
| Completions.ParseState | backend/app/models/habit.rb:6 | a name is accepted exactly when it is the stored name of one of the five states, and then yields that state |
| Completions.FindIndex | backend/app/models/habit.rb:28 | the lookup finds a record exactly when one has the date, and it is the first such record |
| Completions.Find | backend/app/models/habit.rb:28 | the record found has the date asked for; when dates are unique it is the one record with that date |
| Completions.StateOn | backend/app/models/habit.rb:26-30 | a day with no record reads `not_started`; otherwise it reads the state of the record for that date |
| Completions.CompletedOn | backend/app/models/habit.rb:33-35 | with unique dates, true exactly when the day's record is `completed` |
| Completions.Upsert | backend/app/models/habit.rb:42-56 | an existing record is overwritten in place and a new date is appended; other records are untouched; the day afterwards holds the new state, timestamp and the supplied notes or else the old ones; unique dates are preserved |
| Completions.UpsertKeepsOtherDates | backend/app/models/habit.rb:42-56 | a write to one date changes neither the record nor the state of any other date |
| Completions.UpsertIdempotent | backend/app/models/habit.rb:42-56 | writing the same state, notes and timestamp twice gives the same store as writing it once |
| Completions.Toggle | backend/app/models/habit.rb:62-66 | `completed` becomes `not_started`, every other state becomes `completed`, other days keep their state, unique dates are preserved |
| Completions.ToggleTwice | backend/app/models/habit.rb:62-66 | two toggles restore the day's state exactly when it was `completed` or `not_started`; other states end as `not_started` |
| Completions.Count | backend/app/models/habit.rb:150-152 | the number of records in a given state is at most the number of records; its meaning is stated by `Completions.CountIsMultiplicity` |
| Completions.CountIsMultiplicity | backend/app/models/habit.rb:150-152 | the number of records counted in a state is the multiplicity of that state among the records' states |
| Completions.CountsPartition | backend/app/models/habit.rb:150-152 | the counts over the five states add up to the number of records |
| Sorting.Sort | backend/app/models/habit.rb:112-115 | the result is ascending and a permutation of the input, duplicates kept |
| Sorting.SortDescending | backend/app/models/habit.rb:85-89 | the result is descending and a permutation of the input |
| Streaks.CompletedDates | backend/app/models/habit.rb:85-87 | one date per `completed` record: as many as the count of completed records, and every completed record's date among them |
| Streaks.CompletedDateHasRecord | backend/app/models/habit.rb:85-87 | every listed date belongs to a completed record |
| Streaks.Walk | backend/app/models/habit.rb:99-103 | the loop over dates sorted newest first counts at most as many dates as there are; its meaning is stated by `Streaks.WalkIsLongestGapTolerantPrefix` |
| Streaks.WalkIsLongestGapTolerantPrefix | backend/app/models/habit.rb:96-105 | the walk counts the longest prefix whose first date is no earlier than yesterday and whose steps are at most two days |
| Streaks.CurrentStreak | backend/app/models/habit.rb:82-106 | never more than the completed records; zero exactly when every completed date is before yesterday |
| Streaks.LatestCompleted | backend/app/models/habit.rb:85-94 | the newest sorted date belongs to a completed record and no completed record is later |
| Streaks.CurrentStreakIsGapTolerantPrefix | backend/app/models/habit.rb:82-106 | the current streak is the longest gap-tolerant prefix of the completed dates sorted newest first |
| Streaks.LongestWalk | backend/app/models/habit.rb:119-131 | the `each_cons(2)` loop returns at least the best run seen so far and at most the number of dates; its meaning is stated by `Streaks.LongestWalkFindsLongestRun` |
| Streaks.LongestWalkFindsLongestRun | backend/app/models/habit.rb:119-131 | the pairwise walk returns the length of a run of consecutive days, and no run is longer |
| Streaks.LongestStreak | backend/app/models/habit.rb:109-132 | never more than the completed records; zero exactly when there is none |
| Streaks.LongestStreakIsLongestRun | backend/app/models/habit.rb:109-132 | the longest streak is the length of some run of consecutive completed days, and no run is longer |
| Streaks.CurrentStreakThreeDays | backend/app/models/habit.rb:82-106 | completions today, yesterday and the day before give a current streak of 3 |
| Streaks.CurrentStreakToleratesOneMissingDay | backend/app/models/habit.rb:99-103 | completions today and two days ago give 2, because the walk accepts one missing day |
| Streaks.CurrentStreakBrokenByTwoMissingDays | backend/app/models/habit.rb:99-103 | completions today and three days ago give 1 |
| Streaks.LongestStreakExample | backend/app/models/habit.rb:122-129 | days d, d+1, d+2, d+4 and d+5 give a longest streak of 3 |
| Dates.DaysInMonth | backend/app/models/habit.rb:136-137 | a month has 28 to 31 days, and February has 29 exactly in leap years |
| Dates.YearLength | backend/app/models/habit.rb:136-137 | consecutive New Year's day numbers differ by the length of the year |
| Dates.MonthsFillYear | backend/app/models/habit.rb:136-137 | the months before December plus December make up the year |
| Dates.NextMonthFollows | backend/app/models/habit.rb:136-139 | the day after the end of a month is the first of the next month, including across a year boundary |
| Dates.LeapYearExamples | backend/app/models/habit.rb:136-137 | 2024 and 2000 are leap years, 1900 and 2023 are not, and 1970-01-01 has the expected day number |
| Habits.ParseGoal | backend/app/models/habit.rb:3 | a name is accepted exactly when it is one of `none`, `daily`, `weekly`, `monthly` |
| Habits.Failing | backend/app/models/habit.rb:9-13 | keeps exactly the listed constraints the habit violates |
| Habits.Violations | backend/app/models/habit.rb:9-13 | every violated constraint is reported, not just the first; none are reported exactly when the habit is valid |
| Habits.ValidationErrors | backend/app/models/habit.rb:9-13 | one Rails message per violation, in order; empty exactly when the habit is valid |
| Habits.UpdateStreaks | backend/app/models/habit.rb:172-176 | only the streaks change; current is recomputed; longest never decreases and ends up as either its old value or the current streak |
| Habits.UpdateStreaksIdempotent | backend/app/models/habit.rb:172-176 | refreshing twice on the same day is the same as refreshing once |
| Habits.Save | backend/app/models/habit.rb:9-17 | succeeds exactly when valid; a failure carries exactly the validation messages, at least one; a success is the habit with its streaks refreshed by `update_streaks` and nothing else changed |
| Habits.StoredLongestCanUndercount | backend/app/models/habit.rb:172-176 | a three-day run in the past leaves a stored longest streak of 0 while the longest run is 3 |
| Habits.StoredLongestCanOvercount | backend/app/models/habit.rb:172-176 | completions today and two days ago store a longest streak of 2 while the longest run of consecutive days is 1 |
| Habits.UpdateCompletion | backend/app/models/habit.rb:39-56 | an unknown state name fails with `Invalid state: <name>`; otherwise only the completions change, the day reads the new state, other days keep theirs, notes are kept or replaced, unique dates are preserved |
| Habits.ToggleCompletion | backend/app/models/habit.rb:62-66 | the day flips between `completed` and `not_started`; other days and fields are unchanged |
| Habits.StatusRange | backend/app/models/habit.rb:71-78 | one entry per consecutive day, each with the day's state and whether it is `completed` |
| Habits.LastNDaysStatus | backend/app/models/habit.rb:69-79 | `max(n, 0)` entries of consecutive days ending today, oldest first, with each day's state |
| Habits.MonthCompletions | backend/app/models/habit.rb:135-146 | one entry per day of the month, from the first to the day before the next month begins, with each day's state |
| Habits.MonthCompletionsLeapFebruary | backend/app/models/habit.rb:135-146 | February 2024 has 29 entries |
| Habits.Stats | backend/app/models/habit.rb:149-161 | each total is the count of records in its own state (`completed`, `skipped`, `failed`); together they are at most the number of records; completions equal the number of completed dates; the streaks are the cached ones |
| Habits.SavedStreakWithinCompletions | backend/app/models/habit.rb:149-176 | after a save, the reported current streak is at most the total completions and at most the longest streak |
| Habits.NewHabit | backend/app/models/habit.rb:165-170 | a new habit has the fresh id, no completion records, every day not started and all statistics zero |
| HabitStore.SaveExisting | backend/app/models/habit.rb:9-17 | saving a valid changed copy of a stored habit under its own id always succeeds; a success refreshes only the streaks, with longest set to `max(old longest, current)`; a failure carries exactly the validation messages |
| UserSettings.SetDefaults | backend/app/models/user_settings.rb:19-23 | only missing attributes are defaulted: id `default-settings`, 5 compact days, names shown unless explicitly `false` |
| UserSettings.ValidationErrors | backend/app/models/user_settings.rb:3-6 | empty exactly when valid; out-of-range compact days report the matching bound message |
| UserSettings.Current | backend/app/models/user_settings.rb:13-15 | the first row when there is one; otherwise a single new default row, which is valid |
| UserSettings.CurrentIsStable | backend/app/models/user_settings.rb:13-15 | a second lookup returns the same row and creates nothing |
| UpdateUserSettings.Apply | backend/app/graphql/mutations/update_user_settings.rb:15-17 | a supplied field takes the new value, an explicit `false` included; an omitted one keeps the old value; the external id is untouched |
| UpdateUserSettings.Resolve | backend/app/graphql/mutations/update_user_settings.rb:11-24 | succeeds exactly when the row with the supplied fields applied validates; only supplied fields change, an explicit `false` included; a success stores the row with compact days in 1..7; a failure carries exactly the validation messages of the updated row; out-of-range compact days fail and store nothing beyond the lookup's own row |
| UpdateUserSettings.NoArgumentsChangeNothing | backend/app/graphql/mutations/update_user_settings.rb:14-20 | with no arguments and a valid row, the call succeeds and leaves the row as it was |
| UpdateUserSettings.ResolveKeepsCompactDaysInRange | backend/app/graphql/mutations/update_user_settings.rb:11-24 | if every row has compact days in 1..7 before the call, every row still does after it |
| HabitType.ClampDays | backend/app/graphql/types/habit_type.rb:31 | the result lies in 1..7; in-range values are kept and out-of-range ones go to the nearer bound |
| HabitType.LastNDays | backend/app/graphql/types/habit_type.rb:29-33 | between one and seven consecutive days ending today, five when omitted, each with its state |
| HabitType.LastNDaysClampsOutOfRange | backend/app/graphql/types/habit_type.rb:29-33 | arguments below 1 behave as 1 and arguments above 7 behave as 7 |
| HabitType.Last5Days | backend/app/graphql/types/habit_type.rb:25-27 | five entries, the same as `lastNDays` with no argument or with 5 |
| CreateHabit.Resolve | backend/app/graphql/mutations/create_habit.rb:16-30 | succeeds exactly when the fresh id is unused and the defaulted fields are valid; the new habit then has those fields, no records and zero streaks, and is added; a failure reports exactly the new habit's validation messages and adds nothing |
| CreateHabit.ResolvePreservesInvariant | backend/app/graphql/mutations/create_habit.rb:16-30 | creating a habit keeps the table invariant |
| DeleteHabit.Resolve | backend/app/graphql/mutations/delete_habit.rb:10-22 | succeeds exactly when the id is present; an unknown id yields `Habit not found` and no change; afterwards the id is absent and other habits are unchanged |
| DeleteHabit.ResolvePreservesInvariant | backend/app/graphql/mutations/delete_habit.rb:10-22 | deleting keeps the table invariant |
| DeleteHabit.DeleteTwice | backend/app/graphql/mutations/delete_habit.rb:13-15 | a second delete of the same id reports `Habit not found` and changes nothing |
| DeleteHabit.CreateThenDelete | backend/app/graphql/mutations/delete_habit.rb:10-22 | deleting a just-created habit restores the table exactly |
| ToggleHabitCompletion.Resolve | backend/app/graphql/mutations/toggle_habit_completion.rb:12-27 | an unknown id yields `Habit not found` and no change; on a table satisfying the invariant the toggle always succeeds; the returned state is the flipped one now recorded; other days and fields are unchanged; the streaks are refreshed, longest to `max(old longest, current)`; a failed save returns exactly the validation messages |
| ToggleHabitCompletion.ResolvePreservesInvariant | backend/app/graphql/mutations/toggle_habit_completion.rb:12-27 | toggling keeps the table invariant and touches no other habit |
| ToggleHabitCompletion.ToggleIsFlippedUpdate | backend/app/models/habit.rb:62-66 | a toggle stores the same table as a completion update with the flipped state and no notes |
| ToggleHabitCompletion.ToggleTwice | backend/app/graphql/mutations/toggle_habit_completion.rb:19-23 | toggling a day twice returns its original state exactly when that was `completed` or `not_started` |
| UpdateHabitCompletion.Resolve | backend/app/graphql/mutations/update_habit_completion.rb:14-31 | an unknown id yields `Habit not found` and an unknown state yields `Invalid state: <name>`, neither changing anything; otherwise the returned record is the day's record with the requested state, the timestamp and the kept notes; other days are unchanged; the streaks are refreshed, longest to `max(old longest, current)`; a failed save returns exactly the validation messages |
| UpdateHabitCompletion.ResolvePreservesInvariant | backend/app/graphql/mutations/update_habit_completion.rb:14-31 | updating a completion keeps the table invariant and touches no other habit |
| UpdateHabitCompletion.ResolveIdempotent | backend/app/graphql/mutations/update_habit_completion.rb:14-31 | sending the same update twice at the same instant stores the same table as sending it once |
| UpdateHabit.Patch | backend/app/graphql/mutations/update_habit.rb:22 | supplied attributes are assigned and omitted ones kept; id, completions and streaks are untouched |
| UpdateHabit.Resolve | backend/app/graphql/mutations/update_habit.rb:15-27 | an unknown id yields `Habit not found`; on a table satisfying the invariant the update succeeds exactly when the patched name, color and emoji are valid; a success stores the patched habit with refreshed streaks, longest to `max(old longest, current)`; a failure returns exactly the validation messages of the patched habit and changes nothing |
| UpdateHabit.ResolvePreservesInvariant | backend/app/graphql/mutations/update_habit.rb:15-27 | updating keeps the table invariant and touches no other habit |
| UpdateHabit.ResolveIdempotent | backend/app/graphql/mutations/update_habit.rb:15-27 | sending the same update twice stores the same table as sending it once |
| UpdateHabit.EmptyUpdateOnlyRefreshesStreaks | backend/app/graphql/mutations/update_habit.rb:22 | an update with no attributes succeeds and changes nothing but the streaks |

## Left out

- Persistence, the GraphQL transport, the `id` and timestamp columns, and the `ordered` and `active` scopes. These are framework plumbing with no logic of their own.
- Date strings. `Date.parse` of the `date` argument and of stored dates, and the `YYYY-MM-DD` rendering, are not modelled. Dates are day numbers, and the date argument arrives already parsed. An unparseable date, which `update_habit_completion.rb` reports through its `ArgumentError` rescue, is therefore outside the model.
- The ISO 8601 form of `completed_at`. It is an integer timestamp here.
- The Julian calendar that Ruby's `Date` uses before 1582. The model uses the proleptic Gregorian calendar throughout.
- Explicit GraphQL `null` arguments to `createHabit` and to the `days` argument of `lastNDays`, as distinct from omitted ones. An omitted argument takes the Ruby default, but an explicit null arrives as nil, and the model does not tell the two apart. For `createHabit` a nil then reaches the validations. For `lastNDays` a nil makes `[[days, 1].max, 7].min` raise, so the field returns an error, while `HabitType.LastNDays` treats `None` as omitted and gives five entries. `updateHabit` drops nils with `compact`, so there the two cases coincide and are modelled.
- The `false` branch of `destroy` in `delete_habit.rb`. No callback or dependency can veto the destroy, so the branch is unreachable.
- Uniqueness is checked against the map's keys. This assumes every habit is stored under its own external id, which the table invariant states.
- Habits.MonthCompletions: takes only months 1 to 12. Ruby's `Date.new(year, month, 1)` in `month_completions` behaves differently outside that range. For month 0 or 13 it raises `Date::Error`, which `habit_month_data` does not rescue, so the query reports an error. For months -1 to -12 it counts back from December, so `month_completions(2024, -1)` lists December 2024. The model covers neither case.
- `Common.Blank`: Ruby's `blank?` also treats Unicode whitespace as blank. The model recognises only ASCII whitespace.
- `update_columns` inside `update_streaks`. It runs only when the streaks changed, and it writes the same values the save produced, so the saved habit is the one stored.
- The GraphQL enum types `CompletionStateEnum` and `StreakGoalEnum` already restrict the state and goal arguments. The model still takes the state as a name and keeps the stored goal as a string. This way the `Invalid state` error and the goal inclusion validation stay visible (`Completions.ParseState`, `Habits.ParseGoal`).

=== FILE: common.dfy ===
/** Small shared vocabulary: optional values, results, integer helpers and
    the Rails notion of a "blank" string used by every `presence` validation. */
module Common {

  /** A nullable value: `None` stands for Ruby's `nil`. */
  datatype Option<+T> = None | Some(value: T) {

    /** The wrapped value, or `default` when there is none. */
    function GetOr(default: T): T {
      match this
      case Some(v) => v
      case None => default
    }
  }

  /** The outcome of an operation that may fail with an error value. */
  datatype Result<+R, +E> = Success(value: R) | Failure(error: E)

  function Max(a: int, b: int): int {
    if a >= b then a else b
  }

  function Min(a: int, b: int): int {
    if a <= b then a else b
  }

  /** The ASCII white-space characters. */
  predicate IsSpace(c: char) {
    c == ' ' || c == '\t' || c == '\n' || c == '\r' || c == '\U{B}' || c == '\U{C}'
  }

  /** A string is blank when it is empty or made of white space only;
      `presence: true` rejects exactly the blank strings. */
  predicate Blank(s: string) {
    forall i | 0 <= i < |s| :: IsSpace(s[i])
  }
}

=== FILE: completions.dfy ===
/** The per-habit completion store: a sequence of per-date records, looked up
    by date and written by an upsert that keeps at most one record per date. */
module Completions {
  import opened Common

  /** Calendar dates as day numbers; consecutive days differ by one. */
  type Day = int

  /** The five completion states of `Habit::COMPLETION_STATES`. */
  datatype State = NotStarted | InProgress | Completed | Skipped | Failed

  /** The string a state is stored and exchanged as. */
  function StateName(s: State): string {
    match s
    case NotStarted => "not_started"
    case InProgress => "in_progress"
    case Completed => "completed"
    case Skipped => "skipped"
    case Failed => "failed"
  }

  /** Recognises the five state names and nothing else. */
  function ParseState(name: string): (r: Option<State>)
    ensures forall s: State :: StateName(s) == name <==> r == Some(s)
  {
    if name == "not_started" then Some(NotStarted)
    else if name == "in_progress" then Some(InProgress)
    else if name == "completed" then Some(Completed)
    else if name == "skipped" then Some(Skipped)
    else if name == "failed" then Some(Failed)
    else None
  }

  /** One record of the store. `completedAt` is the write time, whatever the state. */
  datatype Completion = Completion(date: Day, state: State, completedAt: int, notes: Option<string>)

  /** The store's invariant: no two records share a date. */
  ghost predicate UniqueDates(cs: seq<Completion>) {
    forall i, j | 0 <= i < j < |cs| :: cs[i].date != cs[j].date
  }

  ghost predicate HasDate(cs: seq<Completion>, d: Day) {
    exists i | 0 <= i < |cs| :: cs[i].date == d
  }

  /** Position of the first record for `d`, as `completions.find` scans. */
  function FindIndex(cs: seq<Completion>, d: Day): (r: Option<nat>)
    ensures r.None? <==> !HasDate(cs, d)
    ensures r.Some? ==> r.value < |cs| && cs[r.value].date == d
    ensures r.Some? ==> forall j | 0 <= j < r.value :: cs[j].date != d
  {
    if cs == [] then None
    else if cs[0].date == d then Some(0)
    else
      match FindIndex(cs[1..], d)
      case None => None
      case Some(i) => Some(i + 1)
  }

  /** The first record for `d`, if any. */
  function Find(cs: seq<Completion>, d: Day): (r: Option<Completion>)
    ensures r.None? <==> !HasDate(cs, d)
    ensures r.Some? ==> r.value in cs && r.value.date == d
    ensures UniqueDates(cs) ==> forall i | 0 <= i < |cs| && cs[i].date == d :: r == Some(cs[i])
  {
    match FindIndex(cs, d)
    case None => None
    case Some(i) => Some(cs[i])
  }

  /** `state_on`: the recorded state for `d`, `not_started` when nothing is recorded. */
  function StateOn(cs: seq<Completion>, d: Day): (r: State)
    ensures !HasDate(cs, d) ==> r == NotStarted
    ensures UniqueDates(cs) ==> forall i | 0 <= i < |cs| && cs[i].date == d :: r == cs[i].state
  {
    match Find(cs, d)
    case None => NotStarted
    case Some(c) => c.state
  }

  /** `completed_on?`: whether the day's record says `completed`. */
  function CompletedOn(cs: seq<Completion>, d: Day): (r: bool)
    ensures UniqueDates(cs) ==>
      (r <==> exists i | 0 <= i < |cs| :: cs[i].date == d && cs[i].state == Completed)
  {
    StateOn(cs, d) == Completed
  }

  /** The notes a write leaves on the record for `d`: the supplied ones,
      otherwise those already there, otherwise none. */
  function KeptNotes(cs: seq<Completion>, d: Day, notes: Option<string>): Option<string> {
    if notes.Some? then notes
    else match Find(cs, d)
      case Some(c) => c.notes
      case None => None
  }

  /** The store change of `update_completion` once the state is known valid:
      overwrite the first record for `d` in place, or append a new one. */
  function Upsert(cs: seq<Completion>, d: Day, st: State, notes: Option<string>, now: int): (r: seq<Completion>)
    ensures HasDate(cs, d) ==> |r| == |cs|
    ensures !HasDate(cs, d) ==> r == cs + [Completion(d, st, now, notes)]
    ensures forall i | 0 <= i < |cs| && cs[i].date != d :: r[i] == cs[i]
    ensures Find(r, d) == Some(Completion(d, st, now, KeptNotes(cs, d, notes)))
    ensures StateOn(r, d) == st
    ensures UniqueDates(cs) ==> UniqueDates(r)
  {
    match FindIndex(cs, d)
    case Some(i) =>
      var r := cs[i := Completion(d, st, now, if notes.Some? then notes else cs[i].notes)];
      assert FindIndex(r, d) == Some(i) by { FindIndexStable(cs, r, d, i); }
      r
    case None =>
      var r := cs + [Completion(d, st, now, notes)];
      assert r[|cs|].date == d;
      assert FindIndex(r, d) == Some(|cs|) by { FindIndexStable(cs, r, d, |cs|); }
      r
  }

  /** If `r` has a record for `d` at `i` and agrees with `cs` on the dates
      before `i`, where `cs` has no record for `d`, the first match in `r` is `i`. */
  lemma {:induction false} FindIndexStable(cs: seq<Completion>, r: seq<Completion>, d: Day, i: nat)
    requires i < |r| && r[i].date == d && i <= |cs|
    requires forall j | 0 <= j < i :: cs[j].date != d && r[j].date == cs[j].date
    ensures FindIndex(r, d) == Some(i)
  {
    if i > 0 {
      assert r[0].date != d;
      FindIndexStable(cs[1..], r[1..], d, i - 1);
    }
  }

  /** A write to `d` leaves the state of every other date as it was. */
  lemma {:induction false} UpsertKeepsOtherDates(cs: seq<Completion>, d: Day, st: State, notes: Option<string>, now: int, e: Day)
    requires e != d
    ensures Find(Upsert(cs, d, st, notes, now), e) == Find(cs, e)
    ensures StateOn(Upsert(cs, d, st, notes, now), e) == StateOn(cs, e)
  {
    var r := Upsert(cs, d, st, notes, now);
    match FindIndex(cs, e)
    case Some(i) =>
      assert r[i] == cs[i];
      forall j | 0 <= j < i ensures r[j].date == cs[j].date {
        if cs[j].date != d { assert r[j] == cs[j]; }
        else { assert r[j].date == d; }
      }
      FindIndexStable(cs, r, e, i);
    case None =>
      forall j | 0 <= j < |r| ensures r[j].date != e {
        if j < |cs| && cs[j].date != d { assert r[j] == cs[j]; }
      }
  }

  /** Repeating a write with the same arguments changes nothing more. */
  lemma {:induction false} UpsertIdempotent(cs: seq<Completion>, d: Day, st: State, notes: Option<string>, now: int)
    ensures Upsert(Upsert(cs, d, st, notes, now), d, st, notes, now) == Upsert(cs, d, st, notes, now)
  {
    var r := Upsert(cs, d, st, notes, now);
    match FindIndex(cs, d)
    case Some(i) =>
      forall j | 0 <= j < i ensures r[j].date == cs[j].date {
        assert cs[j].date != d;
      }
      FindIndexStable(cs, r, d, i);
    case None =>
      FindIndexStable(cs, r, d, |cs|);
  }

  /** The state `toggle_completion` writes, given the current one. */
  function Flip(s: State): State {
    if s == Completed then NotStarted else Completed
  }

  /** `toggle_completion`'s store change: write the flipped state, keep notes. */
  function Toggle(cs: seq<Completion>, d: Day, now: int): (r: seq<Completion>)
    ensures StateOn(cs, d) == Completed ==> StateOn(r, d) == NotStarted
    ensures StateOn(cs, d) != Completed ==> StateOn(r, d) == Completed
    ensures forall e | e != d :: StateOn(r, e) == StateOn(cs, e)
    ensures UniqueDates(cs) ==> UniqueDates(r)
  {
    var r := Upsert(cs, d, Flip(StateOn(cs, d)), None, now);
    forall e | e != d ensures StateOn(r, e) == StateOn(cs, e) {
      UpsertKeepsOtherDates(cs, d, Flip(StateOn(cs, d)), None, now, e);
    }
    r
  }

  /** Two toggles in a row restore the day's state exactly when it started
      as `completed` or `not_started`; the other three states end up `not_started`. */
  lemma ToggleTwice(cs: seq<Completion>, d: Day, now1: int, now2: int)
    ensures var s := StateOn(cs, d);
      StateOn(Toggle(Toggle(cs, d, now1), d, now2), d) == s <==> s == Completed || s == NotStarted
    ensures StateOn(cs, d) != Completed ==> StateOn(Toggle(Toggle(cs, d, now1), d, now2), d) == NotStarted
  {
  }

  /** The states of the records, in store order. */
  function States(cs: seq<Completion>): (r: seq<State>)
    ensures |r| == |cs| && forall i | 0 <= i < |cs| :: r[i] == cs[i].state
  {
    if cs == [] then [] else [cs[0].state] + States(cs[1..])
  }

  /** Number of records in state `st`, as `completions.count` counts them. */
  function Count(cs: seq<Completion>, st: State): (r: nat)
    ensures r <= |cs|
  {
    if cs == [] then 0
    else (if cs[0].state == st then 1 else 0) + Count(cs[1..], st)
  }

  /** The count is the multiplicity of `st` among the records' states. */
  lemma {:induction false} CountIsMultiplicity(cs: seq<Completion>, st: State)
    ensures Count(cs, st) == multiset(States(cs))[st]
  {
    if cs != [] {
      CountIsMultiplicity(cs[1..], st);
      assert States(cs) == [cs[0].state] + States(cs[1..]);
    }
  }

  /** Every record is counted under exactly one of the five states. */
  lemma {:induction false} CountsPartition(cs: seq<Completion>)
    ensures Count(cs, NotStarted) + Count(cs, InProgress) + Count(cs, Completed)
          + Count(cs, Skipped) + Count(cs, Failed) == |cs|
  {
    if cs != [] {
      CountsPartition(cs[1..]);
    }
  }
}

=== FILE: create_habit.dfy ===
/** The `createHabit` mutation: defaults for omitted arguments, validation,
    and insertion under a fresh external id. */
module CreateHabit {
  import opened Common
  import opened Completions
  import opened Habits
  import opened HabitStore

  const DefaultEmoji: string := "⚡"
  const DefaultColor: string := "#a855f7"
  const DefaultGoal: Goal := NoGoal

  /** `resolve`: `freshId` stands for the `SecureRandom.uuid` that
      `set_defaults` draws. The habit is created exactly when every
      validation passes; it then has the resolved fields, no records and
      zero streaks, and nothing else in the table changes. */
  function Resolve(store: Store, name: string, description: Option<string>, emoji: Option<string>,
                   color: Option<string>, streakGoal: Option<Goal>, freshId: string, today: Day): (r: Response<HabitPayload>)
    ensures r.payload.habit.Some? <==> r.payload.errors == []
    ensures r.payload.habit.Some? <==>
      && freshId !in store && !Blank(freshId)
      && !Blank(name) && |name| <= MaxNameLength
      && HexColor(color.GetOr(DefaultColor))
      && !Blank(emoji.GetOr(DefaultEmoji))
    ensures r.payload.habit.None? ==> r.store == store && |r.payload.errors| > 0
    ensures r.payload.habit.None? ==>
      r.payload.errors == ValidationErrors(NewHabit(freshId, name, description, emoji.GetOr(DefaultEmoji),
                                                    color.GetOr(DefaultColor), streakGoal.GetOr(DefaultGoal)),
                                           freshId in store)
    ensures r.payload.habit.Some? ==>
      var h := r.payload.habit.value;
      && h.externalId == freshId
      && r.store == store[freshId := h]
      && h.name == name && h.description == description
      && h.emoji == emoji.GetOr(DefaultEmoji) && h.color == color.GetOr(DefaultColor)
      && ParseGoal(h.streakGoal) == Some(streakGoal.GetOr(DefaultGoal))
      && h.completions == [] && h.currentStreak == 0 && h.longestStreak == 0
  {
    var h := NewHabit(freshId, name, description, emoji.GetOr(DefaultEmoji), color.GetOr(DefaultColor),
                      streakGoal.GetOr(DefaultGoal));
    match Save(h, IdTaken(store, freshId, None), today)
    case Failure(errors) => Response(store, HabitPayload(None, errors))
    case Success(saved) =>
      assert saved.completions == [];
      Response(store[freshId := saved], HabitPayload(Some(saved), []))
  }

  /** Creating a habit keeps the table's invariant. */
  lemma ResolvePreservesInvariant(store: Store, name: string, description: Option<string>, emoji: Option<string>,
                                  color: Option<string>, streakGoal: Option<Goal>, freshId: string, today: Day)
    requires Invariant(store)
    ensures Invariant(Resolve(store, name, description, emoji, color, streakGoal, freshId, today).store)
  {
  }
}

=== FILE: dates.dfy ===
/** Proleptic Gregorian calendar arithmetic on day numbers: what `Date.new`
    and `end_of_month` compute for `month_completions`. Day 0 is 0001-01-01. */
module Dates {

  function IsLeap(y: int): bool {
    y % 4 == 0 && (y % 100 != 0 || y % 400 == 0)
  }

  function DaysInYear(y: int): int {
    if IsLeap(y) then 366 else 365
  }

  /** Length of month `m` of year `y`. */
  function DaysInMonth(y: int, m: int): (r: int)
    requires 1 <= m <= 12
    ensures 28 <= r <= 31
    ensures m == 2 ==> (r == 29 <==> IsLeap(y))
  {
    if m == 2 then (if IsLeap(y) then 29 else 28)
    else if m == 4 || m == 6 || m == 9 || m == 11 then 30
    else 31
  }

  /** Day number of January 1 of year `y`. */
  function DaysBeforeYear(y: int): int {
    var n := y - 1;
    365 * n + n / 4 - n / 100 + n / 400
  }

  /** Days in the months of year `y` before month `m`. */
  function DaysBeforeMonth(y: int, m: int): int
    requires 1 <= m <= 12
  {
    [0, 31, 59, 90, 120, 151, 181, 212, 243, 273, 304, 334][m - 1]
      + (if m > 2 && IsLeap(y) then 1 else 0)
  }

  /** Day number of the date `y`-`m`-`d`. */
  function DayNumber(y: int, m: int, d: int): int
    requires 1 <= m <= 12
  {
    DaysBeforeYear(y) + DaysBeforeMonth(y, m) + d - 1
  }

  /** The day numbers of consecutive New Year's days differ by the year's length. */
  lemma YearLength(y: int)
    ensures DaysBeforeYear(y + 1) == DaysBeforeYear(y) + DaysInYear(y)
  {
    var d4, d100, d400 := y / 4 - (y - 1) / 4, y / 100 - (y - 1) / 100, y / 400 - (y - 1) / 400;
    MultiplesCrossed(y, 4);
    MultiplesCrossed(y, 100);
    MultiplesCrossed(y, 400);
    CenturiesAreLeapCandidates(y);
    assert d4 - d100 + d400 == if IsLeap(y) then 1 else 0;
    assert DaysBeforeYear(y + 1) - DaysBeforeYear(y) == 365 + d4 - d100 + d400;
  }

  /** Every multiple of 400 is a multiple of 100, and every multiple of 100 one of 4. */
  lemma CenturiesAreLeapCandidates(y: int)
    ensures y % 400 == 0 ==> y % 100 == 0
    ensures y % 100 == 0 ==> y % 4 == 0
  {
    MultipleOfMultiple(y, 400, 100);
    MultipleOfMultiple(y, 100, 4);
  }

  lemma MultipleOfMultiple(y: int, k: int, j: int)
    requires (k == 400 && j == 100) || (k == 100 && j == 4)
    ensures y % k == 0 ==> y % j == 0
  {
    if y % k == 0 {
      var m := k / j;
      var q := y / k;
      assert y == k * q;
      assert k == j * m;
      assert y == j * (m * q);
    }
  }

  /** Going from `y - 1` to `y` crosses one multiple of `k` exactly when `y` is one. */
  lemma MultiplesCrossed(y: int, k: int)
    requires k == 4 || k == 100 || k == 400
    ensures y / k - (y - 1) / k == if y % k == 0 then 1 else 0
  {
    var q, r := y / k, y % k;
    assert y == k * q + r && 0 <= r < k;
    if r == 0 {
      assert y - 1 == k * (q - 1) + (k - 1);
    } else {
      assert y - 1 == k * q + (r - 1);
    }
  }

  /** The twelve months fill the year. */
  lemma MonthsFillYear(y: int)
    ensures DaysBeforeMonth(y, 12) + DaysInMonth(y, 12) == DaysInYear(y)
  {
  }

  /** `end_of_month` is the day before the first of the next month: the
      month's days are exactly `DaysInMonth` consecutive day numbers, and the
      day after the last is the first of the following month, across a year
      boundary too. */
  lemma NextMonthFollows(y: int, m: int)
    requires 1 <= m <= 12
    ensures DayNumber(y, m, 1) + DaysInMonth(y, m)
         == if m < 12 then DayNumber(y, m + 1, 1) else DayNumber(y + 1, 1, 1)
  {
    if m == 12 {
      MonthsFillYear(y);
      YearLength(y);
    }
  }

  /** The calendar facts behind `month_completions(2024, 2)` having 29 days:
      2024 and 2000 are leap years, 1900 and 2023 are not. */
  lemma LeapYearExamples()
    ensures DaysInMonth(2024, 2) == 29 && DaysInMonth(2000, 2) == 29
    ensures DaysInMonth(1900, 2) == 28 && DaysInMonth(2023, 2) == 28
    ensures DayNumber(1970, 1, 1) == 719162
  {
  }
}

=== FILE: delete_habit.dfy ===
/** The `deleteHabit` mutation. */
module DeleteHabit {
  import opened Common
  import opened Completions
  import opened Habits
  import opened HabitStore
  import CreateHabit

  datatype DeletePayload = DeletePayload(success: bool, errors: seq<string>)

  /** `resolve`: an unknown id is reported and changes nothing; a known one
      is removed and every other habit stays as it was. `destroy` has no
      callback that can veto it, so its failure branch is never taken. */
  function Resolve(store: Store, externalId: string): (r: Response<DeletePayload>)
    ensures r.payload.success <==> externalId in store
    ensures r.payload.success <==> r.payload.errors == []
    ensures !r.payload.success ==> r.store == store && r.payload.errors == [NotFound]
    ensures externalId !in r.store
    ensures OthersUnchanged(store, r.store, externalId)
  {
    if externalId !in store then Response(store, DeletePayload(false, [NotFound]))
    else Response(store - {externalId}, DeletePayload(true, []))
  }

  /** Deleting keeps the table's invariant. */
  lemma ResolvePreservesInvariant(store: Store, externalId: string)
    requires Invariant(store)
    ensures Invariant(Resolve(store, externalId).store)
  {
  }

  /** A second delete of the same id finds nothing and leaves the table alone. */
  lemma DeleteTwice(store: Store, externalId: string)
    ensures var once := Resolve(store, externalId);
      Resolve(once.store, externalId) == Response(once.store, DeletePayload(false, [NotFound]))
  {
  }

  /** Deleting a habit just created gives back the table as it was before. */
  lemma CreateThenDelete(store: Store, name: string, description: Option<string>, emoji: Option<string>,
                         color: Option<string>, streakGoal: Option<Goal>, freshId: string, today: Day)
    requires CreateHabit.Resolve(store, name, description, emoji, color, streakGoal, freshId, today).payload.habit.Some?
    ensures var created := CreateHabit.Resolve(store, name, description, emoji, color, streakGoal, freshId, today);
      var deleted := Resolve(created.store, freshId);
      deleted.payload.success && deleted.store == store
  {
    var created := CreateHabit.Resolve(store, name, description, emoji, color, streakGoal, freshId, today);
    assert created.store - {freshId} == store;
  }
}

=== FILE: habit.dfy ===
/** The habit entity: validations, the completion-store operations it wraps,
    the streak cache refreshed after every save, and the day-by-day views. */
module Habits {
  import opened Common
  import opened Completions
  import opened Streaks
  import opened Dates

  /** The four streak goals of `Habit::STREAK_GOALS`. */
  datatype Goal = NoGoal | Daily | Weekly | Monthly

  function GoalName(g: Goal): string {
    match g
    case NoGoal => "none"
    case Daily => "daily"
    case Weekly => "weekly"
    case Monthly => "monthly"
  }

  /** Recognises the four goal names and nothing else. */
  function ParseGoal(name: string): (r: Option<Goal>)
    ensures forall g: Goal :: GoalName(g) == name <==> r == Some(g)
  {
    if name == "none" then Some(NoGoal)
    else if name == "daily" then Some(Daily)
    else if name == "weekly" then Some(Weekly)
    else if name == "monthly" then Some(Monthly)
    else None
  }

  /** A habit row. The goal is kept as the stored string, so that the
      inclusion validation has something to check; the streaks are the
      cached counters the row stores. */
  datatype Habit = Habit(
    externalId: string,
    name: string,
    description: Option<string>,
    emoji: string,
    color: string,
    streakGoal: string,
    completions: seq<Completion>,
    currentStreak: int,
    longestStreak: int)

  // ---------------------------------------------------------------------
  // Validations
  // ---------------------------------------------------------------------

  predicate IsHexDigit(c: char) {
    ('0' <= c <= '9') || ('a' <= c <= 'f') || ('A' <= c <= 'F')
  }

  /** `#` followed by exactly six hexadecimal digits and nothing else. */
  predicate HexColor(s: string) {
    |s| == 7 && s[0] == '#' && forall i | 1 <= i < 7 :: IsHexDigit(s[i])
  }

  const MaxNameLength := 100

  /** Every validation passes; `idTaken` says whether another habit already
      uses this external id. */
  predicate Valid(h: Habit, idTaken: bool) {
    && !Blank(h.externalId) && !idTaken
    && !Blank(h.name) && 1 <= |h.name| <= MaxNameLength
    && HexColor(h.color)
    && ParseGoal(h.streakGoal).Some?
    && !Blank(h.emoji)
  }

  /** The constraints a habit can violate, in the order they are declared. */
  datatype Violation =
    | ExternalBlank | ExternalTaken
    | NameBlank | NameTooShort | NameTooLong
    | ColorBlank | ColorInvalid
    | GoalNotIncluded
    | EmojiBlank

  /** The full message Rails reports for a violation. */
  function Message(v: Violation): string {
    match v
    case ExternalBlank => "External can't be blank"
    case ExternalTaken => "External has already been taken"
    case NameBlank => "Name can't be blank"
    case NameTooShort => "Name is too short (minimum is 1 character)"
    case NameTooLong => "Name is too long (maximum is 100 characters)"
    case ColorBlank => "Color can't be blank"
    case ColorInvalid => "Color is invalid"
    case GoalNotIncluded => "Streak goal is not included in the list"
    case EmojiBlank => "Emoji can't be blank"
  }

  /** Whether `h` violates `v`. */
  predicate Violates(h: Habit, idTaken: bool, v: Violation) {
    match v
    case ExternalBlank => Blank(h.externalId)
    case ExternalTaken => idTaken
    case NameBlank => Blank(h.name)
    case NameTooShort => |h.name| < 1
    case NameTooLong => |h.name| > MaxNameLength
    case ColorBlank => Blank(h.color)
    case ColorInvalid => !HexColor(h.color)
    case GoalNotIncluded => ParseGoal(h.streakGoal).None?
    case EmojiBlank => Blank(h.emoji)
  }

  /** The validators in declaration order. */
  const DeclaredChecks: seq<Violation> := [
    ExternalBlank, ExternalTaken, NameBlank, NameTooShort, NameTooLong,
    ColorBlank, ColorInvalid, GoalNotIncluded, EmojiBlank]

  /** The checks of `vs` that `h` fails, in order. */
  function Failing(h: Habit, idTaken: bool, vs: seq<Violation>): (r: seq<Violation>)
    ensures forall v :: v in r <==> v in vs && Violates(h, idTaken, v)
    ensures r == [] <==> forall i | 0 <= i < |vs| :: !Violates(h, idTaken, vs[i])
  {
    if vs == [] then []
    else (if Violates(h, idTaken, vs[0]) then [vs[0]] else []) + Failing(h, idTaken, vs[1..])
  }

  /** Every violated constraint, not just the first: a constraint is listed
      exactly when `h` violates it, and the list is empty exactly when `h` is valid. */
  function Violations(h: Habit, idTaken: bool): (r: seq<Violation>)
    ensures forall v :: v in r <==> Violates(h, idTaken, v)
    ensures r == [] <==> Valid(h, idTaken)
  {
    FailingDeclaredChecks(h, idTaken);
    Failing(h, idTaken, DeclaredChecks)
  }

  lemma FailingDeclaredChecks(h: Habit, idTaken: bool)
    ensures forall v :: v in Failing(h, idTaken, DeclaredChecks) <==> Violates(h, idTaken, v)
    ensures Failing(h, idTaken, DeclaredChecks) == [] <==> Valid(h, idTaken)
  {
    forall v ensures v in DeclaredChecks {
      match v
      case ExternalBlank => assert DeclaredChecks[0] == v;
      case ExternalTaken => assert DeclaredChecks[1] == v;
      case NameBlank => assert DeclaredChecks[2] == v;
      case NameTooShort => assert DeclaredChecks[3] == v;
      case NameTooLong => assert DeclaredChecks[4] == v;
      case ColorBlank => assert DeclaredChecks[5] == v;
      case ColorInvalid => assert DeclaredChecks[6] == v;
      case GoalNotIncluded => assert DeclaredChecks[7] == v;
      case EmojiBlank => assert DeclaredChecks[8] == v;
    }
    ValidIffNoDeclaredCheckFails(h, idTaken);
  }

  lemma ValidIffNoDeclaredCheckFails(h: Habit, idTaken: bool)
    ensures Valid(h, idTaken) <==> forall i | 0 <= i < |DeclaredChecks| :: !Violates(h, idTaken, DeclaredChecks[i])
  {
    var c := DeclaredChecks;
    assert c[0] == ExternalBlank && c[1] == ExternalTaken && c[2] == NameBlank;
    assert c[3] == NameTooShort && c[4] == NameTooLong && c[5] == ColorBlank;
    assert c[6] == ColorInvalid && c[7] == GoalNotIncluded && c[8] == EmojiBlank;
  }

  /** `errors.full_messages`: one message per violation, in order. */
  function ValidationErrors(h: Habit, idTaken: bool): (r: seq<string>)
    ensures r == [] <==> Valid(h, idTaken)
    ensures var vs := Violations(h, idTaken); |r| == |vs| && forall i | 0 <= i < |r| :: r[i] == Message(vs[i])
  {
    var vs := Violations(h, idTaken);
    seq(|vs|, i requires 0 <= i < |vs| => Message(vs[i]))
  }

  // ---------------------------------------------------------------------
  // Saving: validation, then the `after_save` streak refresh
  // ---------------------------------------------------------------------

  /** Equal in every field but the two cached streaks. */
  ghost predicate SameExceptStreaks(a: Habit, b: Habit) {
    a.(currentStreak := 0, longestStreak := 0) == b.(currentStreak := 0, longestStreak := 0)
  }

  /** `update_streaks`: the current streak is recomputed from the completions;
      the longest is a high-water mark raised to the current streak, never
      recomputed from history. */
  function UpdateStreaks(h: Habit, today: Day): (r: Habit)
    ensures SameExceptStreaks(r, h)
    ensures r.currentStreak == CurrentStreak(h.completions, today)
    ensures r.longestStreak >= h.longestStreak && r.longestStreak >= r.currentStreak
    ensures r.longestStreak == h.longestStreak || r.longestStreak == r.currentStreak
  {
    var current := CurrentStreak(h.completions, today);
    h.(currentStreak := current, longestStreak := Max(h.longestStreak, current))
  }

  /** Refreshing the streaks a second time on the same day changes nothing. */
  lemma UpdateStreaksIdempotent(h: Habit, today: Day)
    ensures UpdateStreaks(UpdateStreaks(h, today), today) == UpdateStreaks(h, today)
  {
  }

  /** `save`: a failed validation reports every message and changes nothing;
      a successful one stores the habit with its streaks refreshed. */
  function Save(h: Habit, idTaken: bool, today: Day): (r: Result<Habit, seq<string>>)
    ensures r.Success? <==> Valid(h, idTaken)
    ensures r.Failure? ==> |r.error| > 0 && r.error == ValidationErrors(h, idTaken)
    ensures r.Success? ==> r.value == UpdateStreaks(h, today)
    ensures r.Success? ==> SameExceptStreaks(r.value, h) && r.value.longestStreak >= h.longestStreak
    ensures r.Success? ==> r.value.currentStreak == CurrentStreak(h.completions, today)
    ensures r.Success? ==> r.value.currentStreak <= r.value.longestStreak
  {
    var errors := ValidationErrors(h, idTaken);
    if errors != [] then Failure(errors) else Success(UpdateStreaks(h, today))
  }

  /** The stored longest streak can fall short of the longest run in the
      history: three consecutive days well in the past leave a current streak
      of zero, and the high-water mark is never recomputed from them. */
  lemma StoredLongestCanUndercount(today: Day, h: Habit)
    requires h.completions == AllDone([today - 10, today - 9, today - 8]) && h.longestStreak == 0
    ensures UpdateStreaks(h, today).longestStreak == 0
    ensures LongestStreak(h.completions) == 3
  {
    var ds := [today - 10, today - 9, today - 8];
    assert LongestWalk(ds, 3, 3, 3) == 3;
    assert LongestWalk(ds, 2, 2, 2) == 3;
    assert LongestWalk(ds, 1, 1, 1) == 3;
    LongestStreakOfAscending(ds);
    CompletedDatesOfAllDone(ds);
    assert CurrentStreak(h.completions, today) == 0;
  }

  /** The stored longest streak can also exceed the longest run of strictly
      consecutive days, because the current streak it is raised to tolerates
      a missing day. */
  lemma StoredLongestCanOvercount(today: Day, h: Habit)
    requires h.completions == AllDone([today - 2, today]) && h.longestStreak == 0
    ensures UpdateStreaks(h, today).longestStreak == 2
    ensures LongestStreak(h.completions) == 1
  {
    var ds := [today - 2, today];
    assert LongestWalk(ds, 2, 1, 1) == 1;
    assert LongestWalk(ds, 1, 1, 1) == 1;
    LongestStreakOfAscending(ds);
    CurrentStreakToleratesOneMissingDay(today);
  }

  // ---------------------------------------------------------------------
  // Completion store operations on a habit (before the save)
  // ---------------------------------------------------------------------

  /** The in-memory change of `update_completion`: an unknown state name is
      rejected with the `ArgumentError` message before any record changes;
      otherwise the record for `d` is upserted with timestamp `now`. */
  function UpdateCompletion(h: Habit, d: Day, stateName: string, notes: Option<string>, now: int): (r: Result<Habit, string>)
    ensures r.Failure? <==> ParseState(stateName).None?
    ensures r.Failure? ==> r.error == "Invalid state: " + stateName
    ensures r.Success? ==> r.value.(completions := h.completions) == h
    ensures r.Success? ==> StateName(StateOn(r.value.completions, d)) == stateName
    ensures r.Success? ==> forall e | e != d :: StateOn(r.value.completions, e) == StateOn(h.completions, e)
    ensures r.Success? ==> Find(r.value.completions, d).Some? && Find(r.value.completions, d).value.notes == KeptNotes(h.completions, d, notes)
    ensures r.Success? && UniqueDates(h.completions) ==> UniqueDates(r.value.completions)
  {
    match ParseState(stateName)
    case None => Failure("Invalid state: " + stateName)
    case Some(st) =>
      var cs := Upsert(h.completions, d, st, notes, now);
      forall e | e != d ensures StateOn(cs, e) == StateOn(h.completions, e) {
        UpsertKeepsOtherDates(h.completions, d, st, notes, now, e);
      }
      Success(h.(completions := cs))
  }

  /** The in-memory change of `toggle_completion`. */
  function ToggleCompletion(h: Habit, d: Day, now: int): (r: Habit)
    ensures r.(completions := h.completions) == h
    ensures StateOn(r.completions, d) == (if CompletedOn(h.completions, d) then NotStarted else Completed)
    ensures forall e | e != d :: StateOn(r.completions, e) == StateOn(h.completions, e)
    ensures UniqueDates(h.completions) ==> UniqueDates(r.completions)
  {
    h.(completions := Toggle(h.completions, d, now))
  }

  // ---------------------------------------------------------------------
  // Day-by-day views
  // ---------------------------------------------------------------------

  /** One entry of a day view: the date, its state and the `completed` flag. */
  datatype DayStatus = DayStatus(date: Day, state: State, completed: bool)

  /** The entries for `count` consecutive days starting at `first`. */
  function StatusRange(cs: seq<Completion>, first: Day, count: nat): (r: seq<DayStatus>)
    ensures |r| == count
    ensures forall i | 0 <= i < count :: r[i].date == first + i
    ensures forall i | 0 <= i < count :: r[i].state == StateOn(cs, r[i].date)
    ensures forall i | 0 <= i < count :: r[i].completed <==> r[i].state == Completed
    decreases count
  {
    if count == 0 then []
    else [DayStatus(first, StateOn(cs, first), CompletedOn(cs, first))] + StatusRange(cs, first + 1, count - 1)
  }

  /** `last_n_days_status(n)`: the `n` days ending today, oldest first; no
      entries when `n` is not positive. */
  function LastNDaysStatus(h: Habit, n: int, today: Day): (r: seq<DayStatus>)
    ensures |r| == Max(n, 0)
    ensures |r| > 0 ==> r[|r| - 1].date == today
    ensures forall i | 0 < i < |r| :: r[i].date == r[i - 1].date + 1
    ensures forall i | 0 <= i < |r| :: r[i].state == StateOn(h.completions, r[i].date)
    ensures forall i | 0 <= i < |r| :: r[i].completed <==> r[i].state == Completed
  {
    if n <= 0 then [] else StatusRange(h.completions, today - n + 1, n)
  }

  /** `month_completions(year, month)`: one entry per day of the month,
      oldest first, ending the day before the next month begins. */
  function MonthCompletions(h: Habit, year: int, month: int): (r: seq<DayStatus>)
    requires 1 <= month <= 12
    ensures |r| == DaysInMonth(year, month)
    ensures r[0].date == DayNumber(year, month, 1)
    ensures r[|r| - 1].date + 1 == if month < 12 then DayNumber(year, month + 1, 1) else DayNumber(year + 1, 1, 1)
    ensures forall i | 0 < i < |r| :: r[i].date == r[i - 1].date + 1
    ensures forall i | 0 <= i < |r| :: r[i].state == StateOn(h.completions, r[i].date)
    ensures forall i | 0 <= i < |r| :: r[i].completed <==> r[i].state == Completed
  {
    NextMonthFollows(year, month);
    StatusRange(h.completions, DayNumber(year, month, 1), DaysInMonth(year, month))
  }

  /** February 2024 has 29 entries. */
  lemma MonthCompletionsLeapFebruary(h: Habit)
    ensures |MonthCompletions(h, 2024, 2)| == 29
  {
    LeapYearExamples();
  }

  // ---------------------------------------------------------------------
  // Statistics and creation defaults
  // ---------------------------------------------------------------------

  datatype HabitStats = HabitStats(
    totalCompletions: nat,
    totalSkipped: nat,
    totalFailed: nat,
    currentStreak: int,
    longestStreak: int)

  /** `stats`: per-state record counts and the cached streaks. */
  function Stats(h: Habit): (r: HabitStats)
    ensures r.totalCompletions + r.totalSkipped + r.totalFailed <= |h.completions|
    ensures r.totalCompletions == Count(h.completions, Completed) == |CompletedDates(h.completions)|
    ensures r.totalSkipped == Count(h.completions, Skipped)
    ensures r.totalFailed == Count(h.completions, Failed)
    ensures r.currentStreak == h.currentStreak && r.longestStreak == h.longestStreak
  {
    CountsPartition(h.completions);
    HabitStats(Count(h.completions, Completed), Count(h.completions, Skipped), Count(h.completions, Failed),
               h.currentStreak, h.longestStreak)
  }

  /** After a save of a valid habit the cached current streak never exceeds the
      number of completed records the stats report. */
  lemma SavedStreakWithinCompletions(h: Habit, idTaken: bool, today: Day)
    requires Valid(h, idTaken)
    ensures var s := Stats(Save(h, idTaken, today).value);
      s.currentStreak <= s.totalCompletions && s.currentStreak <= s.longestStreak
  {
  }

  /** A habit as `Habit.new` plus `set_defaults` build it on create: the
      fresh external id, no completion records and both streaks at zero. */
  function NewHabit(freshId: string, name: string, description: Option<string>, emoji: string, color: string, goal: Goal): (r: Habit)
    ensures r.externalId == freshId
    ensures r.completions == []
    ensures forall d :: StateOn(r.completions, d) == NotStarted
    ensures Stats(r) == HabitStats(0, 0, 0, 0, 0)
    ensures ParseGoal(r.streakGoal) == Some(goal)
  {
    Habit(freshId, name, description, emoji, color, GoalName(goal), [], 0, 0)
  }
}

=== FILE: habit_store.dfy ===
/** The habits table as a map from external id to habit, the lookups the
    resolvers share, and the invariant every resolver preserves. */
module HabitStore {
  import opened Common
  import opened Completions
  import opened Habits

  type Store = map<string, Habit>

  const NotFound: string := "Habit not found"

  /** The uniqueness validation: some habit other than the one stored under
      `self` already has external id `id`. */
  predicate IdTaken(store: Store, id: string, self: Option<string>) {
    id in store && self != Some(id)
  }

  /** A stored habit: valid, at most one record per date, and its cached
      longest streak no smaller than its current one. */
  ghost predicate WellFormed(h: Habit) {
    Valid(h, false) && UniqueDates(h.completions) && 0 <= h.currentStreak <= h.longestStreak
  }

  /** Every habit is stored under its own external id and is well formed. */
  ghost predicate Invariant(store: Store) {
    forall k | k in store :: store[k].externalId == k && WellFormed(store[k])
  }

  /** Saving a changed copy of the habit stored under `key`. */
  function SaveExisting(store: Store, key: string, h: Habit, today: Day): (r: Result<Habit, seq<string>>)
    requires key in store
    ensures Invariant(store) && h.externalId == key && Valid(h, false) ==> r.Success?
    ensures r.Success? ==> Valid(h, IdTaken(store, h.externalId, Some(key)))
    ensures r.Success? ==> SameExceptStreaks(r.value, h) && r.value.longestStreak >= h.longestStreak
    ensures r.Success? ==> r.value.currentStreak == Streaks.CurrentStreak(h.completions, today)
    ensures r.Success? ==> 0 <= r.value.currentStreak <= r.value.longestStreak
    ensures r.Success? ==> r.value.longestStreak == Max(h.longestStreak, r.value.currentStreak)
    ensures r.Failure? ==> |r.error| > 0 && r.error == ValidationErrors(h, IdTaken(store, h.externalId, Some(key)))
  {
    Save(h, IdTaken(store, h.externalId, Some(key)), today)
  }

  /** The result of a resolver: the table afterwards and the payload returned. */
  datatype Response<P> = Response(store: Store, payload: P)

  datatype HabitPayload = HabitPayload(habit: Option<Habit>, errors: seq<string>)

  /** Every other habit is exactly as it was. */
  ghost predicate OthersUnchanged(before: Store, after: Store, key: string) {
    forall k | k != key :: (k in after <==> k in before) && (k in before ==> after[k] == before[k])
  }

  /** Storing a well-formed habit under its own id keeps the invariant and
      touches no other habit. */
  lemma ReplacePreservesInvariant(store: Store, key: string, h: Habit)
    requires Invariant(store)
    requires h.externalId == key && WellFormed(h)
    ensures Invariant(store[key := h]) && OthersUnchanged(store, store[key := h], key)
  {
  }
}

=== FILE: habit_type.dfy ===
/** The computed fields of the GraphQL habit type: the clamped `lastNDays`
    view and the fixed five-day `last5Days` view. */
module HabitType {
  import opened Common
  import opened Completions
  import opened Habits

  const DefaultDays: int := 5
  const MinDays: int := 1
  const MaxDays: int := 7

  /** `[[days, 1].max, 7].min`. */
  function ClampDays(days: int): (n: int)
    ensures MinDays <= n <= MaxDays
    ensures MinDays <= days <= MaxDays ==> n == days
    ensures days < MinDays ==> n == MinDays
    ensures days > MaxDays ==> n == MaxDays
  {
    Min(Max(days, MinDays), MaxDays)
  }

  /** `last_n_days(days:)`: between one and seven entries ending today,
      oldest first, five when the argument is omitted. */
  function LastNDays(h: Habit, days: Option<int>, today: Day): (r: seq<DayStatus>)
    ensures |r| == ClampDays(days.GetOr(DefaultDays))
    ensures days.None? ==> |r| == DefaultDays
    ensures r[|r| - 1].date == today
    ensures forall i | 0 < i < |r| :: r[i].date == r[i - 1].date + 1
    ensures forall i | 0 <= i < |r| :: r[i].state == StateOn(h.completions, r[i].date)
    ensures forall i | 0 <= i < |r| :: r[i].completed <==> r[i].state == Completed
  {
    LastNDaysStatus(h, ClampDays(days.GetOr(DefaultDays)), today)
  }

  /** Out-of-range arguments are clamped: zero behaves as one and ten as seven. */
  lemma LastNDaysClampsOutOfRange(h: Habit, today: Day, days: int)
    ensures days < MinDays ==> LastNDays(h, Some(days), today) == LastNDays(h, Some(MinDays), today)
    ensures days > MaxDays ==> LastNDays(h, Some(days), today) == LastNDays(h, Some(MaxDays), today)
    ensures LastNDays(h, Some(0), today) == LastNDays(h, Some(1), today)
    ensures LastNDays(h, Some(10), today) == LastNDays(h, Some(7), today)
  {
  }

  /** `last_5_days`: always five entries, the same as `lastNDays` with its default. */
  function Last5Days(h: Habit, today: Day): (r: seq<DayStatus>)
    ensures |r| == 5
    ensures r == LastNDays(h, None, today) && r == LastNDays(h, Some(5), today)
  {
    LastNDaysStatus(h, 5, today)
  }
}

=== FILE: sorting.dfy ===
/** Ascending sort and reversal of integer sequences: the `.sort` and
    `.sort.reverse` the streak calculator applies to completed dates. */
module Sorting {

  ghost predicate Ascending(s: seq<int>) {
    forall i, j | 0 <= i < j < |s| :: s[i] <= s[j]
  }

  ghost predicate Descending(s: seq<int>) {
    forall i, j | 0 <= i < j < |s| :: s[i] >= s[j]
  }

  /** Inserts `x` into an ascending sequence, keeping it ascending. */
  function Insert(x: int, s: seq<int>): (r: seq<int>)
    requires Ascending(s)
    ensures Ascending(r)
    ensures multiset(r) == multiset(s) + multiset{x}
    ensures |r| == |s| + 1
  {
    if s == [] then [x]
    else if x <= s[0] then [x] + s
    else
      var rest := Insert(x, s[1..]);
      assert s == [s[0]] + s[1..];
      BoundedByHead(s, x, rest);
      [s[0]] + rest
  }

  /** Every element of `rest`, a permutation of `s[1..]` plus `x`, is at
      least the head of the ascending sequence `s`. */
  lemma BoundedByHead(s: seq<int>, x: int, rest: seq<int>)
    requires Ascending(s) && |s| > 0 && s[0] < x
    requires multiset(rest) == multiset(s[1..]) + multiset{x}
    ensures forall k | 0 <= k < |rest| :: s[0] <= rest[k]
  {
    forall k | 0 <= k < |rest|
      ensures s[0] <= rest[k]
    {
      assert rest[k] in multiset(rest);
      if rest[k] != x {
        assert rest[k] in multiset(s[1..]);
        var j :| 0 <= j < |s[1..]| && s[1..][j] == rest[k];
        assert s[j + 1] == rest[k];
      }
    }
  }

  /** Sorts ascending; duplicates are kept, as Ruby's `Array#sort` keeps them. */
  function Sort(s: seq<int>): (r: seq<int>)
    ensures Ascending(r)
    ensures multiset(r) == multiset(s)
    ensures |r| == |s|
  {
    if s == [] then []
    else
      assert s == [s[0]] + s[1..];
      Insert(s[0], Sort(s[1..]))
  }

  /** The sequence read back to front. */
  function Reverse(s: seq<int>): (r: seq<int>)
    ensures |r| == |s|
    ensures forall i | 0 <= i < |s| :: r[i] == s[|s| - 1 - i]
  {
    if s == [] then [] else Reverse(s[1..]) + [s[0]]
  }

  /** Sorts descending, as `.sort.reverse` does. */
  function SortDescending(s: seq<int>): (r: seq<int>)
    ensures Descending(r)
    ensures multiset(r) == multiset(s)
    ensures |r| == |s|
  {
    var a := Sort(s);
    var r := Reverse(a);
    assert forall k | 0 <= k < |r| :: r[k] in multiset(a) by {
      forall k | 0 <= k < |r|
        ensures r[k] in multiset(a)
      {
        assert r[k] == a[|a| - 1 - k];
      }
    }
    ReverseSameMultiset(a);
    r
  }

  lemma {:induction false} ReverseSameMultiset(s: seq<int>)
    ensures multiset(Reverse(s)) == multiset(s)
  {
    if s != [] {
      ReverseSameMultiset(s[1..]);
      assert s == [s[0]] + s[1..];
    }
  }

  /** The head of a descending sequence is its greatest element. */
  lemma DescendingHeadIsMax(s: seq<int>, x: int)
    requires Descending(s)
    requires x in multiset(s)
    ensures |s| > 0 && x <= s[0]
  {
    assert x in s;
  }
}

=== FILE: streaks.dfy ===
/** The streak calculator: pure walks over the sorted dates of the records
    whose state is `completed`. */
module Streaks {
  import opened Common
  import opened Sorting
  import opened Completions

  /** The dates of the `completed` records, in store order. Duplicates are
      kept: the calculator does not deduplicate. */
  function CompletedDates(cs: seq<Completion>): (r: seq<Day>)
    ensures |r| == Count(cs, Completed)
    ensures forall i | 0 <= i < |cs| && cs[i].state == Completed :: cs[i].date in r
  {
    if cs == [] then []
    else
      var rest := CompletedDates(cs[1..]);
      assert forall i | 1 <= i < |cs| :: cs[i] == cs[1..][i - 1];
      if cs[0].state == Completed then [cs[0].date] + rest else rest
  }

  /** Every listed date is the date of some completed record. */
  lemma {:induction false} CompletedDateHasRecord(cs: seq<Completion>, x: Day)
    requires x in CompletedDates(cs)
    ensures exists i | 0 <= i < |cs| :: cs[i].state == Completed && cs[i].date == x
  {
    if cs[0].state == Completed && x == cs[0].date {
      assert cs[0].state == Completed && cs[0].date == x;
    } else {
      CompletedDateHasRecord(cs[1..], x);
      var i :| 0 <= i < |cs[1..]| && cs[1..][i].state == Completed && cs[1..][i].date == x;
      assert cs[i + 1].state == Completed && cs[i + 1].date == x;
    }
  }

  // ---------------------------------------------------------------------
  // Current streak
  // ---------------------------------------------------------------------

  /** The walk of `calculate_current_streak` over dates sorted newest first:
      a date is counted while it is no earlier than the day before `expected`,
      and `expected` then moves to the day before the counted date. */
  function Walk(ds: seq<Day>, expected: Day): (r: nat)
    ensures r <= |ds|
  {
    if ds == [] then 0
    else if ds[0] < expected - 1 then 0
    else 1 + Walk(ds[1..], ds[0] - 1)
  }

  /** The first `k` dates of `ds` form a streak as the walk accepts one: the
      first is no earlier than yesterday and each next one is at most two
      days before the previous one (one missing day is tolerated). */
  ghost predicate GapTolerantPrefix(ds: seq<Day>, today: Day, k: int) {
    && 0 <= k <= |ds|
    && (k > 0 ==> ds[0] >= today - 1)
    && forall i | 1 <= i < k :: ds[i] >= ds[i - 1] - 2
  }

  /** The prefix of length `k` cannot be extended by the next date. */
  ghost predicate PrefixStops(ds: seq<Day>, today: Day, k: int)
    requires 0 <= k <= |ds|
  {
    || k == |ds|
    || (k == 0 && ds[0] < today - 1)
    || (k > 0 && ds[k] < ds[k - 1] - 2)
  }

  /** The walk counts exactly the longest gap-tolerant prefix. */
  lemma {:induction false} WalkIsLongestGapTolerantPrefix(ds: seq<Day>, expected: Day)
    ensures GapTolerantPrefix(ds, expected, Walk(ds, expected))
    ensures PrefixStops(ds, expected, Walk(ds, expected))
  {
    if ds != [] && ds[0] >= expected - 1 {
      var tail := ds[1..];
      WalkIsLongestGapTolerantPrefix(tail, ds[0] - 1);
      var k := Walk(ds, expected);
      assert k == 1 + Walk(tail, ds[0] - 1);
      forall i | 1 <= i < k
        ensures ds[i] >= ds[i - 1] - 2
      {
        if i == 1 {
          assert tail[0] >= ds[0] - 2;
        } else {
          assert tail[i - 1] >= tail[i - 2] - 2;
        }
      }
      if k < |ds| {
        if k == 1 {
          assert tail[0] < ds[0] - 2;
        } else {
          assert tail[k - 1] < tail[k - 2] - 2;
        }
      }
    }
  }

  /** `calculate_current_streak` with `Date.current` passed in as `today`. */
  function CurrentStreak(cs: seq<Completion>, today: Day): (r: nat)
    ensures r <= Count(cs, Completed)
    ensures r == 0 <==> forall i | 0 <= i < |cs| && cs[i].state == Completed :: cs[i].date < today - 1
  {
    if |cs| == 0 then 0
    else
      var ds := SortDescending(CompletedDates(cs));
      if |ds| == 0 then 0
      else
        LatestCompleted(cs);
        if ds[0] < today - 1 then 0 else Walk(ds, today)
  }

  /** The head of the completed dates sorted newest first is the date of a
      completed record, and no completed record is later. */
  lemma LatestCompleted(cs: seq<Completion>)
    requires Count(cs, Completed) > 0
    ensures var ds := SortDescending(CompletedDates(cs));
      && (exists i | 0 <= i < |cs| :: cs[i].state == Completed && cs[i].date == ds[0])
      && (forall i | 0 <= i < |cs| && cs[i].state == Completed :: cs[i].date <= ds[0])
  {
    var ds := SortDescending(CompletedDates(cs));
    assert ds[0] in multiset(CompletedDates(cs));
    CompletedDateHasRecord(cs, ds[0]);
    forall i | 0 <= i < |cs| && cs[i].state == Completed
      ensures cs[i].date <= ds[0]
    {
      DescendingHeadIsMax(ds, cs[i].date);
    }
  }

  /** The current streak is the longest gap-tolerant prefix of the completed
      dates sorted newest first. */
  lemma CurrentStreakIsGapTolerantPrefix(cs: seq<Completion>, today: Day)
    ensures var ds := SortDescending(CompletedDates(cs));
      && GapTolerantPrefix(ds, today, CurrentStreak(cs, today))
      && PrefixStops(ds, today, CurrentStreak(cs, today))
  {
    var ds := SortDescending(CompletedDates(cs));
    if |cs| == 0 {
      assert CompletedDates(cs) == [];
    } else if |ds| > 0 && ds[0] >= today - 1 {
      WalkIsLongestGapTolerantPrefix(ds, today);
    }
  }

  // ---------------------------------------------------------------------
  // Longest streak
  // ---------------------------------------------------------------------

  /** `ds[a..a+len]` is a run of strictly consecutive calendar days. */
  ghost predicate Run(ds: seq<Day>, a: int, len: int) {
    && 0 <= a && 1 <= len && a + len <= |ds|
    && forall k | a <= k < a + len - 1 :: ds[k + 1] == ds[k] + 1
  }

  /** The `each_cons(2)` loop of `calculate_longest_streak`: `cur` is the
      running streak ending at `ds[i - 1]` and `mx` the best one so far. */
  function LongestWalk(ds: seq<Day>, i: nat, cur: nat, mx: nat): (r: nat)
    requires 1 <= i <= |ds| && 1 <= cur <= i && 1 <= mx <= |ds|
    ensures mx <= r <= |ds|
    decreases |ds| - i
  {
    if i == |ds| then mx
    else if ds[i] == ds[i - 1] + 1 then LongestWalk(ds, i + 1, cur + 1, Max(mx, cur + 1))
    else LongestWalk(ds, i + 1, 1, mx)
  }

  /** A run ending where the running streak ends starts no earlier than it. */
  lemma RunEndingAtBreak(ds: seq<Day>, i: int, cur: int, a: int, len: int)
    requires 1 <= cur <= i <= |ds|
    requires i - cur == 0 || ds[i - cur] != ds[i - cur - 1] + 1
    requires Run(ds, a, len) && a + len == i
    ensures len <= cur
  {
  }

  /** A run longer than one day ends with a pair of consecutive days. */
  lemma RunLastPair(ds: seq<Day>, a: int, len: int)
    requires Run(ds, a, len)
    ensures len > 1 ==> ds[a + len - 1] == ds[a + len - 2] + 1
  {
  }

  /** Extending the running streak keeps `mx` an upper bound on every run
      seen so far, once `mx` is raised to the new running length. */
  lemma ExtendStep(ds: seq<Day>, i: nat, cur: nat, mx: nat)
    requires 1 <= i < |ds| && 1 <= cur <= i && ds[i] == ds[i - 1] + 1
    requires Run(ds, i - cur, cur)
    requires i - cur == 0 || ds[i - cur] != ds[i - cur - 1] + 1
    requires forall a, len | a + len <= i && Run(ds, a, len) :: len <= mx
    ensures Run(ds, i - cur, cur + 1)
    ensures forall a, len | a + len <= i + 1 && Run(ds, a, len) :: len <= Max(mx, cur + 1)
  {
    forall a, len | a + len <= i + 1 && Run(ds, a, len)
      ensures len <= Max(mx, cur + 1)
    {
      if a + len == i + 1 && len > 1 {
        assert Run(ds, a, len - 1);
        RunEndingAtBreak(ds, i, cur, a, len - 1);
      }
    }
  }

  /** Resetting the running streak at a gap keeps `mx` an upper bound. */
  lemma ResetStep(ds: seq<Day>, i: nat, mx: nat)
    requires 1 <= i < |ds| && 1 <= mx && ds[i] != ds[i - 1] + 1
    requires forall a, len | a + len <= i && Run(ds, a, len) :: len <= mx
    ensures forall a, len | a + len <= i + 1 && Run(ds, a, len) :: len <= mx
  {
    forall a, len | a + len <= i + 1 && Run(ds, a, len)
      ensures len <= mx
    {
      RunLastPair(ds, a, len);
    }
  }

  /** The walk returns the length of a longest run of consecutive days. */
  lemma {:induction false} LongestWalkFindsLongestRun(ds: seq<Day>, i: nat, cur: nat, mx: nat, start: int)
    requires 1 <= i <= |ds| && 1 <= cur <= i && 1 <= mx <= |ds| && cur <= mx
    requires Run(ds, i - cur, cur)
    requires i - cur == 0 || ds[i - cur] != ds[i - cur - 1] + 1
    requires Run(ds, start, mx)
    requires forall a, len | a + len <= i && Run(ds, a, len) :: len <= mx
    ensures exists a :: Run(ds, a, LongestWalk(ds, i, cur, mx))
    ensures forall a, len | Run(ds, a, len) :: len <= LongestWalk(ds, i, cur, mx)
    decreases |ds| - i
  {
    if i == |ds| {
      assert LongestWalk(ds, i, cur, mx) == mx;
      assert Run(ds, start, mx);
    } else if ds[i] == ds[i - 1] + 1 {
      ExtendStep(ds, i, cur, mx);
      var mx' := Max(mx, cur + 1);
      var start' := if cur + 1 > mx then i - cur else start;
      LongestWalkFindsLongestRun(ds, i + 1, cur + 1, mx', start');
      assert LongestWalk(ds, i, cur, mx) == LongestWalk(ds, i + 1, cur + 1, mx');
    } else {
      ResetStep(ds, i, mx);
      assert Run(ds, i, 1);
      LongestWalkFindsLongestRun(ds, i + 1, 1, mx, start);
      assert LongestWalk(ds, i, cur, mx) == LongestWalk(ds, i + 1, 1, mx);
    }
  }

  /** `calculate_longest_streak`: the longest run of consecutive days among
      the completed dates sorted oldest first. */
  function LongestStreak(cs: seq<Completion>): (r: nat)
    ensures r <= Count(cs, Completed)
    ensures r == 0 <==> Count(cs, Completed) == 0
  {
    if |cs| == 0 then 0
    else
      var ds := Sort(CompletedDates(cs));
      if |ds| == 0 then 0 else LongestWalk(ds, 1, 1, 1)
  }

  /** The longest streak is the length of some run of consecutive days among
      the sorted completed dates, and no such run is longer. */
  lemma LongestStreakIsLongestRun(cs: seq<Completion>)
    ensures var ds := Sort(CompletedDates(cs));
      |ds| > 0 ==>
        && (exists a :: Run(ds, a, LongestStreak(cs)))
        && (forall a, len | Run(ds, a, len) :: len <= LongestStreak(cs))
  {
    var ds := Sort(CompletedDates(cs));
    if |ds| > 0 {
      assert |cs| > 0;
      assert Run(ds, 0, 1);
      forall a, len | a + len <= 1 && Run(ds, a, len) ensures len <= 1 { }
      LongestWalkFindsLongestRun(ds, 1, 1, 1, 0);
      assert LongestStreak(cs) == LongestWalk(ds, 1, 1, 1);
    }
  }

  // ---------------------------------------------------------------------
  // Worked examples
  // ---------------------------------------------------------------------

  /** An ascending sequence is its own sort. */
  lemma {:induction false} SortOfAscending(s: seq<int>)
    requires Ascending(s)
    ensures Sort(s) == s
  {
    if s != [] {
      SortOfAscending(s[1..]);
      assert Sort(s) == Insert(s[0], s[1..]);
    }
  }

  /** One `completed` record per listed date. */
  function AllDone(ds: seq<Day>): (r: seq<Completion>)
    ensures |r| == |ds|
  {
    if ds == [] then [] else [Completion(ds[0], Completed, 0, None)] + AllDone(ds[1..])
  }

  lemma {:induction false} CompletedDatesOfAllDone(ds: seq<Day>)
    ensures CompletedDates(AllDone(ds)) == ds
  {
    if ds != [] {
      CompletedDatesOfAllDone(ds[1..]);
      assert AllDone(ds)[1..] == AllDone(ds[1..]);
    }
  }

  /** For ascending completed dates whose latest is today or yesterday, the
      current streak is the walk over them newest first. */
  lemma CurrentStreakOfAscending(ds: seq<Day>, today: Day)
    requires Ascending(ds) && |ds| > 0 && ds[|ds| - 1] >= today - 1
    ensures CurrentStreak(AllDone(ds), today) == Walk(Reverse(ds), today)
  {
    CompletedDatesOfAllDone(ds);
    SortOfAscending(ds);
    assert SortDescending(CompletedDates(AllDone(ds))) == Reverse(ds);
  }

  /** Three completed days ending today give a current streak of three. The
      records are a parameter pinned by the precondition rather than written
      into the ensures, so that the solver does not unfold the literal
      records on every use of the contract. */
  lemma CurrentStreakThreeDays(today: Day, cs: seq<Completion>)
    requires cs == AllDone([today - 2, today - 1, today])
    ensures CurrentStreak(cs, today) == 3
  {
    var ds := [today - 2, today - 1, today];
    CurrentStreakOfAscending(ds, today);
    var rev := Reverse(ds);
    assert rev == [today, today - 1, today - 2] by {
      assert |rev| == 3 && rev[0] == ds[2] && rev[1] == ds[1] && rev[2] == ds[0];
    }
    WalkThreeDays(today);
  }

  lemma WalkThreeDays(today: Day)
    ensures Walk([today, today - 1, today - 2], today) == 3
  {
    var ds := [today, today - 1, today - 2];
    assert ds[1..] == [today - 1, today - 2] && ds[2..] == [today - 2] && ds[3..] == [];
    assert Walk(ds[2..], today - 2) == 1;
    assert Walk(ds[1..], today - 1) == 2;
  }

  /** One missing day does not break the current streak: completions today
      and two days ago count as two, not one. */
  lemma CurrentStreakToleratesOneMissingDay(today: Day)
    ensures CurrentStreak(AllDone([today - 2, today]), today) == 2
  {
    var ds := [today, today - 2];
    CurrentStreakOfAscending([today - 2, today], today);
    assert Reverse([today - 2, today]) == ds;
    assert Walk(ds[1..], today - 1) == 1;
  }

  /** Two missing days do break it. */
  lemma CurrentStreakBrokenByTwoMissingDays(today: Day)
    ensures CurrentStreak(AllDone([today - 3, today]), today) == 1
  {
    var ds := [today, today - 3];
    CurrentStreakOfAscending([today - 3, today], today);
    assert Reverse([today - 3, today]) == ds;
    assert Walk(ds[1..], today - 1) == 0;
  }

  /** Completed days d, d+1, d+2, d+4 and d+5 (one day missing) give a
      longest streak of three. */
  lemma LongestStreakExample(d: Day)
    ensures LongestStreak(AllDone([d, d + 1, d + 2, d + 4, d + 5])) == 3
  {
    var ds := [d, d + 1, d + 2, d + 4, d + 5];
    assert LongestWalk(ds, 5, 2, 3) == 3;
    assert LongestWalk(ds, 4, 1, 3) == 3;
    assert LongestWalk(ds, 3, 3, 3) == 3;
    assert LongestWalk(ds, 2, 2, 2) == 3;
    assert LongestWalk(ds, 1, 1, 1) == 3;
    LongestStreakOfAscending(ds);
  }

  /** For ascending completed dates the longest streak is the walk over them. */
  lemma LongestStreakOfAscending(ds: seq<Day>)
    requires Ascending(ds) && |ds| > 0
    ensures LongestStreak(AllDone(ds)) == LongestWalk(ds, 1, 1, 1)
  {
    CompletedDatesOfAllDone(ds);
    SortOfAscending(ds);
  }
}

=== FILE: toggle_habit_completion.dfy ===
/** The `toggleHabitCompletion` mutation: flip one day between `completed`
    and `not_started`. */
module ToggleHabitCompletion {
  import opened Common
  import opened Completions
  import opened Streaks
  import opened Habits
  import opened HabitStore
  import UpdateHabitCompletion

  datatype TogglePayload = TogglePayload(habit: Option<Habit>, newState: Option<State>, errors: seq<string>)

  /** `resolve`: `date` is the already parsed date argument and `today`
      stands for `Date.current`, the day toggled when no date is given. An
      unknown id is reported and changes nothing; otherwise the day's state
      is flipped, the habit saved, and the state now recorded is returned. */
  function Resolve(store: Store, externalId: string, date: Option<Day>, today: Day, now: int): (r: Response<TogglePayload>)
    ensures externalId !in store ==> r == Response(store, TogglePayload(None, None, [NotFound]))
    ensures r.payload.habit.Some? <==> r.payload.errors == []
    ensures r.payload.habit.Some? <==> r.payload.newState.Some?
    ensures r.payload.habit.None? ==> r.store == store && |r.payload.errors| > 0
    ensures externalId in store && r.payload.habit.None? ==>
      var changed := ToggleCompletion(store[externalId], date.GetOr(today), now);
      r.payload.errors == ValidationErrors(changed, IdTaken(store, changed.externalId, Some(externalId)))
    ensures Invariant(store) && externalId in store ==> r.payload.habit.Some?
    ensures r.payload.habit.Some? ==>
      var d := date.GetOr(today);
      var before := store[externalId];
      var h := r.payload.habit.value;
      && externalId in store
      && r.store == store[externalId := h]
      && r.payload.newState == Some(StateOn(h.completions, d))
      && r.payload.newState.value == (if CompletedOn(before.completions, d) then NotStarted else Completed)
      && (forall e | e != d :: StateOn(h.completions, e) == StateOn(before.completions, e))
      && h.(completions := before.completions, currentStreak := before.currentStreak, longestStreak := before.longestStreak) == before
      && (UniqueDates(before.completions) ==> UniqueDates(h.completions))
      && h.currentStreak == CurrentStreak(h.completions, today)
      && 0 <= h.currentStreak <= h.longestStreak
      && h.longestStreak == Max(before.longestStreak, h.currentStreak)
  {
    if externalId !in store then Response(store, TogglePayload(None, None, [NotFound]))
    else
      var d := date.GetOr(today);
      match SaveExisting(store, externalId, ToggleCompletion(store[externalId], d, now), today)
      case Failure(errors) => Response(store, TogglePayload(None, None, errors))
      case Success(saved) => Response(store[externalId := saved], TogglePayload(Some(saved), Some(StateOn(saved.completions, d)), []))
  }

  /** Toggling keeps the table's invariant and leaves every other habit alone. */
  lemma ResolvePreservesInvariant(store: Store, externalId: string, date: Option<Day>, today: Day, now: int)
    requires Invariant(store)
    ensures var r := Resolve(store, externalId, date, today, now);
      Invariant(r.store) && OthersUnchanged(store, r.store, externalId)
  {
    var r := Resolve(store, externalId, date, today, now);
    if r.payload.habit.Some? {
      var before := store[externalId];
      var h := r.payload.habit.value;
      assert WellFormed(before);
      assert h.externalId == externalId && Valid(h, false);
      ReplacePreservesInvariant(store, externalId, h);
    }
  }

  /** A toggle is the completion update that writes the flipped state with no notes. */
  lemma ToggleIsFlippedUpdate(store: Store, externalId: string, date: Option<Day>, today: Day, now: int)
    requires externalId in store
    ensures var d := date.GetOr(today);
      var flipped := StateName(Flip(StateOn(store[externalId].completions, d)));
      Resolve(store, externalId, date, today, now).store
        == UpdateHabitCompletion.Resolve(store, externalId, flipped, date, None, today, now).store
  {
    var d := date.GetOr(today);
    var flipped := Flip(StateOn(store[externalId].completions, d));
    assert ParseState(StateName(flipped)) == Some(flipped);
  }

  /** Toggling the same day twice brings back its state exactly when it was
      `completed` or `not_started`; any other state ends as `not_started`. */
  lemma ToggleTwice(store: Store, externalId: string, date: Option<Day>, today: Day, now1: int, now2: int)
    requires Invariant(store) && externalId in store
    ensures var d := date.GetOr(today);
      var s := StateOn(store[externalId].completions, d);
      var once := Resolve(store, externalId, date, today, now1);
      var twice := Resolve(once.store, externalId, date, today, now2);
      && twice.payload.newState.Some?
      && (twice.payload.newState.value == s <==> s == Completed || s == NotStarted)
      && StateOn(twice.store[externalId].completions, d) == twice.payload.newState.value
  {
    ResolvePreservesInvariant(store, externalId, date, today, now1);
  }
}

=== FILE: update_habit.dfy ===
/** The `updateHabit` mutation: a partial update of a habit's attributes. */
module UpdateHabit {
  import opened Common
  import opened Completions
  import opened Streaks
  import opened Habits
  import opened HabitStore

  /** The habit with every supplied attribute assigned; `None` is an
      argument left out (or null, which `compact` drops as well). */
  function Patch(h: Habit, name: Option<string>, description: Option<string>, emoji: Option<string>,
                 color: Option<string>, streakGoal: Option<Goal>): (r: Habit)
    ensures r.externalId == h.externalId && r.completions == h.completions
    ensures r.currentStreak == h.currentStreak && r.longestStreak == h.longestStreak
    ensures name.Some? ==> r.name == name.value
    ensures name.None? ==> r.name == h.name
    ensures description.Some? ==> r.description == description
    ensures description.None? ==> r.description == h.description
    ensures emoji.Some? ==> r.emoji == emoji.value
    ensures emoji.None? ==> r.emoji == h.emoji
    ensures color.Some? ==> r.color == color.value
    ensures color.None? ==> r.color == h.color
    ensures streakGoal.Some? ==> ParseGoal(r.streakGoal) == streakGoal
    ensures streakGoal.None? ==> r.streakGoal == h.streakGoal
  {
    h.(name := name.GetOr(h.name),
       description := if description.Some? then description else h.description,
       emoji := emoji.GetOr(h.emoji),
       color := color.GetOr(h.color),
       streakGoal := if streakGoal.Some? then GoalName(streakGoal.value) else h.streakGoal)
  }

  /** `resolve`: `today` stands for `Date.current`, which the streak refresh
      after the save reads. An unknown id is reported and changes nothing; a
      patch that fails validation reports every message and changes
      nothing; otherwise the patched habit is stored with its streaks
      refreshed. */
  function Resolve(store: Store, externalId: string, name: Option<string>, description: Option<string>,
                   emoji: Option<string>, color: Option<string>, streakGoal: Option<Goal>, today: Day): (r: Response<HabitPayload>)
    ensures externalId !in store ==> r == Response(store, HabitPayload(None, [NotFound]))
    ensures r.payload.habit.Some? <==> r.payload.errors == []
    ensures r.payload.habit.None? ==> r.store == store && |r.payload.errors| > 0
    ensures externalId in store && r.payload.habit.None? ==>
      var patched := Patch(store[externalId], name, description, emoji, color, streakGoal);
      r.payload.errors == ValidationErrors(patched, IdTaken(store, patched.externalId, Some(externalId)))
    ensures Invariant(store) && externalId in store ==>
      (r.payload.habit.Some? <==>
        && !Blank(name.GetOr(store[externalId].name)) && |name.GetOr(store[externalId].name)| <= MaxNameLength
        && HexColor(color.GetOr(store[externalId].color))
        && !Blank(emoji.GetOr(store[externalId].emoji)))
    ensures r.payload.habit.Some? ==>
      var before := store[externalId];
      var h := r.payload.habit.value;
      && externalId in store
      && r.store == store[externalId := h]
      && SameExceptStreaks(h, Patch(before, name, description, emoji, color, streakGoal))
      && h.currentStreak == CurrentStreak(before.completions, today)
      && 0 <= h.currentStreak <= h.longestStreak
      && h.longestStreak == Max(before.longestStreak, h.currentStreak)
  {
    if externalId !in store then Response(store, HabitPayload(None, [NotFound]))
    else
      match SaveExisting(store, externalId, Patch(store[externalId], name, description, emoji, color, streakGoal), today)
      case Failure(errors) => Response(store, HabitPayload(None, errors))
      case Success(saved) => Response(store[externalId := saved], HabitPayload(Some(saved), []))
  }

  /** Updating keeps the table's invariant and leaves every other habit alone. */
  lemma ResolvePreservesInvariant(store: Store, externalId: string, name: Option<string>, description: Option<string>,
                                  emoji: Option<string>, color: Option<string>, streakGoal: Option<Goal>, today: Day)
    requires Invariant(store)
    ensures var r := Resolve(store, externalId, name, description, emoji, color, streakGoal, today);
      Invariant(r.store) && OthersUnchanged(store, r.store, externalId)
  {
    var r := Resolve(store, externalId, name, description, emoji, color, streakGoal, today);
    if r.payload.habit.Some? {
      var before := store[externalId];
      var h := r.payload.habit.value;
      assert WellFormed(before);
      assert h.externalId == externalId && Valid(h, false);
      ReplacePreservesInvariant(store, externalId, h);
    }
  }

  /** Sending the same update twice leaves the table as the first one did. */
  lemma ResolveIdempotent(store: Store, externalId: string, name: Option<string>, description: Option<string>,
                          emoji: Option<string>, color: Option<string>, streakGoal: Option<Goal>, today: Day)
    requires Invariant(store)
    ensures var once := Resolve(store, externalId, name, description, emoji, color, streakGoal, today);
      Resolve(once.store, externalId, name, description, emoji, color, streakGoal, today).store == once.store
  {
    var once := Resolve(store, externalId, name, description, emoji, color, streakGoal, today);
    if once.payload.habit.Some? {
      var before := store[externalId];
      var patched := Patch(before, name, description, emoji, color, streakGoal);
      var h := UpdateStreaks(patched, today);
      assert once.store == store[externalId := h] by {
        assert SaveExisting(store, externalId, patched, today) == Success(h);
      }
      assert Valid(h, false) by {
        assert WellFormed(before);
      }
      assert SaveExisting(once.store, externalId, h, today) == Success(h) by {
        assert Patch(h, name, description, emoji, color, streakGoal) == h;
        UpdateStreaksIdempotent(patched, today);
      }
      assert Resolve(once.store, externalId, name, description, emoji, color, streakGoal, today).store
          == once.store[externalId := h] by {
        assert Patch(h, name, description, emoji, color, streakGoal) == h;
      }
    }
  }

  /** An update with no arguments changes nothing but the refreshed streaks. */
  lemma EmptyUpdateOnlyRefreshesStreaks(store: Store, externalId: string, today: Day)
    requires Invariant(store) && externalId in store
    ensures var r := Resolve(store, externalId, None, None, None, None, None, today);
      && r.payload.habit.Some?
      && SameExceptStreaks(r.store[externalId], store[externalId])
  {
  }
}

=== FILE: update_habit_completion.dfy ===
/** The `updateHabitCompletion` mutation: set the state of one day. */
module UpdateHabitCompletion {
  import opened Common
  import opened Completions
  import opened Streaks
  import opened Habits
  import opened HabitStore

  datatype CompletionPayload = CompletionPayload(habit: Option<Habit>, completion: Option<Completion>, errors: seq<string>)

  /** `resolve`: `date` is the already parsed date argument, `today` stands
      for `Date.current` and `now` for `Time.current`. An unknown id or an
      unknown state name is reported and changes nothing; otherwise the
      habit is saved with the day's record written, and that record is
      returned. */
  function Resolve(store: Store, externalId: string, stateName: string, date: Option<Day>,
                   notes: Option<string>, today: Day, now: int): (r: Response<CompletionPayload>)
    ensures externalId !in store ==> r == Response(store, CompletionPayload(None, None, [NotFound]))
    ensures externalId in store && ParseState(stateName).None? ==>
      r == Response(store, CompletionPayload(None, None, ["Invalid state: " + stateName]))
    ensures r.payload.habit.Some? <==> r.payload.errors == []
    ensures r.payload.habit.Some? <==> r.payload.completion.Some?
    ensures r.payload.habit.None? ==> r.store == store && |r.payload.errors| > 0
    ensures externalId in store && ParseState(stateName).Some? && r.payload.habit.None? ==>
      var changed := UpdateCompletion(store[externalId], date.GetOr(today), stateName, notes, now).value;
      r.payload.errors == ValidationErrors(changed, IdTaken(store, changed.externalId, Some(externalId)))
    ensures Invariant(store) && externalId in store && ParseState(stateName).Some? ==> r.payload.habit.Some?
    ensures r.payload.habit.Some? ==>
      var d := date.GetOr(today);
      var before := store[externalId];
      var h := r.payload.habit.value;
      && externalId in store
      && r.store == store[externalId := h]
      && r.payload.completion == Some(Completion(d, ParseState(stateName).value, now, KeptNotes(before.completions, d, notes)))
      && Find(h.completions, d) == r.payload.completion
      && StateName(StateOn(h.completions, d)) == stateName
      && (forall e | e != d :: StateOn(h.completions, e) == StateOn(before.completions, e))
      && h.(completions := before.completions, currentStreak := before.currentStreak, longestStreak := before.longestStreak) == before
      && (UniqueDates(before.completions) ==> UniqueDates(h.completions))
      && h.currentStreak == CurrentStreak(h.completions, today)
      && 0 <= h.currentStreak <= h.longestStreak
      && h.longestStreak == Max(before.longestStreak, h.currentStreak)
  {
    if externalId !in store then Response(store, CompletionPayload(None, None, [NotFound]))
    else
      var d := date.GetOr(today);
      match UpdateCompletion(store[externalId], d, stateName, notes, now)
      case Failure(message) => Response(store, CompletionPayload(None, None, [message]))
      case Success(changed) =>
        match SaveExisting(store, externalId, changed, today)
        case Failure(errors) => Response(store, CompletionPayload(None, None, errors))
        case Success(saved) => Response(store[externalId := saved], CompletionPayload(Some(saved), Find(saved.completions, d), []))
  }

  /** Updating a day's completion keeps the table's invariant and leaves every other habit alone. */
  lemma ResolvePreservesInvariant(store: Store, externalId: string, stateName: string, date: Option<Day>,
                                  notes: Option<string>, today: Day, now: int)
    requires Invariant(store)
    ensures var r := Resolve(store, externalId, stateName, date, notes, today, now);
      Invariant(r.store) && OthersUnchanged(store, r.store, externalId)
  {
    var r := Resolve(store, externalId, stateName, date, notes, today, now);
    if r.payload.habit.Some? {
      var before := store[externalId];
      var h := r.payload.habit.value;
      assert WellFormed(before);
      assert h.externalId == externalId && Valid(h, false);
      ReplacePreservesInvariant(store, externalId, h);
    }
  }

  /** Sending the same update twice at the same instant leaves the table as
      the first one did. */
  lemma ResolveIdempotent(store: Store, externalId: string, stateName: string, date: Option<Day>,
                          notes: Option<string>, today: Day, now: int)
    requires Invariant(store)
    ensures var once := Resolve(store, externalId, stateName, date, notes, today, now);
      Resolve(once.store, externalId, stateName, date, notes, today, now).store == once.store
  {
    var once := Resolve(store, externalId, stateName, date, notes, today, now);
    if once.payload.habit.Some? {
      var d := date.GetOr(today);
      var before := store[externalId];
      var st := ParseState(stateName).value;
      var changed := before.(completions := Upsert(before.completions, d, st, notes, now));
      var h := UpdateStreaks(changed, today);
      SuccessStores(store, externalId, stateName, date, notes, today, now);
      assert WellFormed(before);
      UpsertIdempotent(before.completions, d, st, notes, now);
      UpdateStreaksIdempotent(changed, today);
      FixpointUnchanged(once.store, externalId, stateName, date, notes, today, now, h);
    }
  }

  /** A successful update stores the habit with the day written and its streaks refreshed. */
  lemma SuccessStores(store: Store, externalId: string, stateName: string, date: Option<Day>,
                      notes: Option<string>, today: Day, now: int)
    requires Invariant(store) && externalId in store && ParseState(stateName).Some?
    ensures var before := store[externalId];
      var d := date.GetOr(today);
      var changed := before.(completions := Upsert(before.completions, d, ParseState(stateName).value, notes, now));
      Resolve(store, externalId, stateName, date, notes, today, now).store == store[externalId := UpdateStreaks(changed, today)]
  {
  }

  /** An update that writes what the stored habit already holds leaves the table alone. */
  lemma FixpointUnchanged(store: Store, externalId: string, stateName: string, date: Option<Day>,
                          notes: Option<string>, today: Day, now: int, h: Habit)
    requires externalId in store && store[externalId] == h
    requires h.externalId == externalId && Valid(h, false)
    requires ParseState(stateName).Some?
    requires Upsert(h.completions, date.GetOr(today), ParseState(stateName).value, notes, now) == h.completions
    requires UpdateStreaks(h, today) == h
    ensures Resolve(store, externalId, stateName, date, notes, today, now).store == store
  {
    assert h.(completions := h.completions) == h;
    assert SaveExisting(store, externalId, h, today) == Success(h);
  }
}

=== FILE: update_user_settings.dfy ===
/** The `updateUserSettings` mutation: a partial update of the settings row
    that reports validation failures as an error list. */
module UpdateUserSettings {
  import opened Common
  import opened UserSettings

  datatype Payload = Payload(userSettings: Option<Settings>, errors: seq<string>)

  /** The settings table after the call, and what the caller receives. */
  datatype Response = Response(rows: seq<Settings>, payload: Payload)

  /** Applies only the supplied fields: a nil argument leaves its field as
      it was, an explicit `false` is applied. */
  function Apply(s: Settings, compactDays: Option<int>, showHabitNames: Option<bool>): (r: Settings)
    ensures r.externalId == s.externalId
    ensures compactDays.Some? ==> r.compactDays == compactDays.value
    ensures compactDays.None? ==> r.compactDays == s.compactDays
    ensures showHabitNames.Some? ==> r.showHabitNames == showHabitNames.value
    ensures showHabitNames.None? ==> r.showHabitNames == s.showHabitNames
  {
    s.(compactDays := compactDays.GetOr(s.compactDays),
       showHabitNames := showHabitNames.GetOr(s.showHabitNames))
  }

  /** `resolve`: look up (or create) the row, apply the supplied fields and
      save; a failed validation returns no settings and the messages, and
      persists nothing beyond the lookup's own creation of the row. */
  function Resolve(rows: seq<Settings>, compactDays: Option<int>, showHabitNames: Option<bool>): (r: Response)
    ensures r.payload.userSettings.Some? <==> r.payload.errors == []
    ensures var l := Current(rows);
      r.payload.userSettings.Some? <==> Valid(Apply(l.settings, compactDays, showHabitNames), IdTakenByOther(l.rows, l.settings.externalId, 0))
    ensures r.payload.userSettings.None? ==> r.rows == Current(rows).rows
    ensures var l := Current(rows);
      r.payload.userSettings.None? ==>
        r.payload.errors == ValidationErrors(Apply(l.settings, compactDays, showHabitNames),
                                             IdTakenByOther(l.rows, l.settings.externalId, 0))
    ensures r.payload.userSettings.Some? ==>
      var before := Current(rows).settings;
      var after := r.payload.userSettings.value;
      && after.externalId == before.externalId
      && after.compactDays == (if compactDays.Some? then compactDays.value else before.compactDays)
      && after.showHabitNames == (if showHabitNames.Some? then showHabitNames.value else before.showHabitNames)
      && MinCompactDays <= after.compactDays <= MaxCompactDays
      && r.rows == Current(rows).rows[0 := after]
      && Current(r.rows).settings == after
    ensures compactDays.Some? && !(MinCompactDays <= compactDays.value <= MaxCompactDays) ==>
      r.payload.userSettings.None? && |r.payload.errors| > 0 && r.rows == Current(rows).rows
  {
    var lookup := Current(rows);
    var updated := Apply(lookup.settings, compactDays, showHabitNames);
    var errors := ValidationErrors(updated, IdTakenByOther(lookup.rows, updated.externalId, 0));
    if errors == [] then Response(lookup.rows[0 := updated], Payload(Some(updated), []))
    else Response(lookup.rows, Payload(None, errors))
  }

  /** With neither argument the call succeeds with no errors and leaves the
      stored settings as the lookup found or created them, provided the row
      is valid, which it is whenever every row keeps compact days in range
      and a distinct, present external id. */
  lemma NoArgumentsChangeNothing(rows: seq<Settings>)
    requires var l := Current(rows); Valid(l.settings, IdTakenByOther(l.rows, l.settings.externalId, 0))
    ensures Resolve(rows, None, None) == Response(Current(rows).rows, Payload(Some(Current(rows).settings), []))
  {
    var l := Current(rows);
    assert Apply(l.settings, None, None) == l.settings;
    assert l.rows[0 := l.settings] == l.rows;
  }

  /** Every row keeps its number of compact days in 1..7. */
  ghost predicate CompactDaysInRange(rows: seq<Settings>) {
    forall i | 0 <= i < |rows| :: MinCompactDays <= rows[i].compactDays <= MaxCompactDays
  }

  /** No sequence of updates takes compact days out of 1..7. */
  lemma ResolveKeepsCompactDaysInRange(rows: seq<Settings>, compactDays: Option<int>, showHabitNames: Option<bool>)
    requires CompactDaysInRange(rows)
    ensures CompactDaysInRange(Resolve(rows, compactDays, showHabitNames).rows)
  {
  }
}

=== FILE: user_settings.dfy ===
/** The global settings record: lookup-or-create of the single row, its
    creation defaults and its validations. */
module UserSettings {
  import opened Common

  datatype Settings = Settings(externalId: string, compactDays: int, showHabitNames: bool)

  /** The attributes a new row is given before `set_defaults` runs; `None`
      is an attribute left nil. */
  datatype Draft = Draft(externalId: Option<string>, compactDays: Option<int>, showHabitNames: Option<bool>)

  const DefaultExternalId: string := "default-settings"
  const DefaultCompactDays: int := 5
  const MinCompactDays: int := 1
  const MaxCompactDays: int := 7

  /** `set_defaults`: only nil attributes are filled in, so an explicit
      `false` for the name flag survives. */
  function SetDefaults(d: Draft): (s: Settings)
    ensures d.externalId.Some? ==> s.externalId == d.externalId.value
    ensures d.externalId.None? ==> s.externalId == DefaultExternalId
    ensures d.compactDays.Some? ==> s.compactDays == d.compactDays.value
    ensures d.compactDays.None? ==> s.compactDays == DefaultCompactDays
    ensures s.showHabitNames <==> d.showHabitNames != Some(false)
  {
    Settings(d.externalId.GetOr(DefaultExternalId),
             d.compactDays.GetOr(DefaultCompactDays),
             d.showHabitNames.GetOr(true))
  }

  /** Every validation passes: a present external id no other row uses and a
      number of compact days in 1..7. The name flag is a boolean by type, so
      its inclusion in `[true, false]` always holds. */
  predicate Valid(s: Settings, idTaken: bool) {
    !Blank(s.externalId) && !idTaken && MinCompactDays <= s.compactDays <= MaxCompactDays
  }

  /** `errors.full_messages` for the settings validators. */
  function ValidationErrors(s: Settings, idTaken: bool): (r: seq<string>)
    ensures r == [] <==> Valid(s, idTaken)
    ensures s.compactDays < MinCompactDays ==> r != [] && r[|r| - 1] == "Compact days must be greater than or equal to 1"
    ensures s.compactDays > MaxCompactDays ==> r != [] && r[|r| - 1] == "Compact days must be less than or equal to 7"
  {
    (if Blank(s.externalId) then ["External can't be blank"] else [])
    + (if idTaken then ["External has already been taken"] else [])
    + (if s.compactDays < MinCompactDays then ["Compact days must be greater than or equal to 1"] else [])
    + (if s.compactDays > MaxCompactDays then ["Compact days must be less than or equal to 7"] else [])
  }

  /** Whether a row other than the one at `self` has external id `id`. */
  predicate IdTakenByOther(rows: seq<Settings>, id: string, self: int) {
    exists i | 0 <= i < |rows| :: i != self && rows[i].externalId == id
  }

  /** The settings table and the record `current` hands back. */
  datatype Lookup = Lookup(rows: seq<Settings>, settings: Settings)

  /** `current`: the first row when there is one; otherwise a new row
      created with external id `default-settings` and the defaults. The
      created row is valid, so `first_or_create!` never raises. */
  function Current(rows: seq<Settings>): (r: Lookup)
    ensures |rows| > 0 ==> r.rows == rows && r.settings == rows[0]
    ensures |rows| == 0 ==> r.rows == [r.settings] && r.settings == Settings(DefaultExternalId, DefaultCompactDays, true)
    ensures |rows| == 0 ==> Valid(r.settings, IdTakenByOther(r.rows, r.settings.externalId, 0))
    ensures |r.rows| > 0 && r.settings == r.rows[0]
  {
    if |rows| > 0 then Lookup(rows, rows[0])
    else
      var s := SetDefaults(Draft(Some(DefaultExternalId), None, None));
      assert !IsSpace(s.externalId[0]);
      Lookup([s], s)
  }

  /** Repeated calls return the same record and create nothing more. */
  lemma CurrentIsStable(rows: seq<Settings>)
    ensures Current(Current(rows).rows) == Current(rows)
  {
  }
}
